=== FILE: README.md ===
# Python course shell: exercise runner and lesson navigation

This project models the interactive core of a single-page Python course.
It has two parts.

- **The exercise panel** (`components/ExerciseArea.tsx`). It holds:
  - the editor state: the user's code, the active tab, the running flag, the last result and the last error;
  - how a code-execution request starts and settles;
  - the description of each terminating signal and the status label of a finished run;
  - the tokeniser that turns an exercise description with `**bold**` and `` `code` `` spans into fragments.
- **The application shell** (`App.tsx`). It holds:
  - the active section and the expanded categories and groups of the sidebar tree;
  - the auto-expand effect;
  - the resizable sidebar width;
  - the landing page's start button and the lesson's "next section" button;
  - the category, group and ungrouped lists derived from the list of sections.

The record types come from `types.ts`. The modules are:

| module | file | contents |
|---|---|---|
| `Types` | `types.dfy` | sections, exercise data, `Option`, JavaScript truthiness of an optional string |
| `Lists` | `lists.dfy` | the array operations the shell uses: filter-out, toggle, append-if-absent, `Array.from(new Set(...))`, `filter`, `map` |
| `Description` | `description.dfy` | the regular-expression split, the classification of parts and the rendered fragments |
| `ExerciseRunner` | `runner.dfy` | the panel's state machine, the settlement of a request, signal and status labels |
| `Navigation` | `navigation.dfy` | the shell's state machine and the lesson tree |

Each component is modelled as a state, an `Enabled` predicate and an
`Apply` function, with a trace function over sequences of events:

- `Enabled` says whether the control behind an event is on screen and not disabled;
- `Apply` gives the effect of an enabled event.

A state invariant is proved for every reachable state. In the runner,
while a request is pending neither a result nor an error is set, and a
result and an error are never set together. "Set" means the field is
non-null; whether the console is on the page is a separate question
(`ConsoleShown`), because an error message that is the empty string is set
but falsy. In the navigation state, the width stays strictly between 200
and 600, and neither expanded list holds a duplicate.

The navigation state starts on the landing page (`home`) with the
auto-expand effect applied once, as React runs it on mount; it expands
something only when some section carries the id `home`.

The network call is not executed. A run records the request it would send
(`Sent`), and settlement takes an abstract `Outcome`. The outcome is one of:

- the HTTP status was not ok;
- the body parsed, with or without a `run` object;
- `fetch` or `json()` threw, either an `Error` or something else.

Several behaviours are modelled as the code has them:

- The reset button is disabled while a run is pending (`ExerciseArea.tsx:170`). The model follows the code, so reset is not always available.
- The "copy the solution into the editor and run" button (`ExerciseArea.tsx:304-311`) only copies. It switches to the edit tab and clears the result, but it does not start a run and it leaves an error message set. `CopySolutionThenRun` states this, and it also states that a run pressed next sends the solution.
- A pending request is not cancelled when the exercise changes. Its result lands under the next exercise, and `StaleResultLands` exhibits this.
- Every part of the split is classified, plain parts included. A plain part that happens to start and end with `**` renders bold, and a lone `**` renders as an empty bold span (`LoneBoldRendersEmpty`).
- An expanded group is keyed by its name alone (`App.tsx:91-97`, `228`). Two categories with a group of the same name expand and collapse together.

## Model

| member | source | states |
|---|---|---|
| Lists.Without | App.tsx:86 | filtering out `x` leaves no copy of `x`, keeps exactly the other members, and never lengthens the list |
| Lists.WithoutNoDup | App.tsx:86 | filtering a duplicate-free list keeps it duplicate-free |
| Lists.Toggle | App.tsx:83-97 | after a toggle, `x` is a member exactly when it was not; every other value keeps its membership |
| Lists.ToggleKeepsOthers | App.tsx:83-97 | with `x` filtered out, the list before and after a toggle is the same sequence; an absent `x` is appended at the end; a present one makes the list shorter |
| Lists.ToggleTwice | App.tsx:83-97 | toggling an absent entry twice restores the list |
| Lists.ToggleNoDup | App.tsx:83-97 | toggling keeps a duplicate-free list duplicate-free |
| Lists.AddIfAbsent | App.tsx:102-115 | the value becomes a member; the old list is a prefix of the new one; nothing else is added; a present value leaves the list unchanged; no duplicate is introduced |
| Lists.Dedup | App.tsx:73 | `Array.from(new Set(l))` has no duplicates and the same members as `l` |
| Lists.DedupFirstOccurrenceOrder | App.tsx:73 | the distinct elements come in strictly increasing order of first occurrence, which is a `Set`'s insertion order |
| Lists.Filter | App.tsx:194 | `filter` keeps exactly the members satisfying the predicate and never lengthens the list |
| Lists.FilterConcat | App.tsx:194 | filtering a concatenation is concatenating the filtered halves, so `filter` keeps the order and the duplicates of the kept elements |
| Lists.FilterAll | App.tsx:194 | a list whose every element passes is returned whole |
| Lists.FilterNoDup | App.tsx:194 | filtering a duplicate-free list keeps it duplicate-free |
| Lists.Map | App.tsx:73 | `map` keeps the length and applies the function at every index |
| Lists.MapConcat | App.tsx:198 | mapping a concatenation is concatenating the mapped halves |
| Description.FindClose | components/ExerciseArea.tsx:21 | a closing delimiter found by the lazy `.*?` lies inside the text, after the opening |
| Description.FindCloseFirst | components/ExerciseArea.tsx:21 | the closing delimiter found is the first one after the opening, and no line terminator lies between them |
| Description.FindCloseNone | components/ExerciseArea.tsx:21 | when no closing delimiter is found, every later delimiter lies beyond a line terminator |
| Description.MatchAt | components/ExerciseArea.tsx:21 | a match starting at a position is at least two characters long and ends inside the text |
| Description.MatchIsSpan | components/ExerciseArea.tsx:21 | every match is a one-line `**…**` span with no inner `**`, or a one-line backtick span with no inner backtick |
| Description.FindCloseAt | components/ExerciseArea.tsx:21 | the first delimiter reached without crossing a line terminator is what the lazy `.*?` stops at |
| Description.BoldSpanIsMatch | components/ExerciseArea.tsx:21 | every one-line `**…**` span with no inner `**` is matched, from its first to its last character |
| Description.CodeSpanIsMatch | components/ExerciseArea.tsx:21 | every one-line backtick span with no inner backtick is matched, from its first to its last character |
| Description.MatchAtCharacterised | components/ExerciseArea.tsx:21 | the pattern matches from one position to another exactly when the text between them is a bold or a code span |
| Description.NoMatchNoSpan | components/ExerciseArea.tsx:21 | where the pattern does not match between two positions, the text between them is no span |
| Description.MatcherFindsAllSpans | components/ExerciseArea.tsx:21 | every span of the text is a match of the pattern |
| Description.MatcherProperties | components/ExerciseArea.tsx:21 | the pattern's matches always advance, and each one is a bold or code span |
| Description.SplitFrom | components/ExerciseArea.tsx:21 | the splitting loop from a position yields a tokenisation of the rest of the text |
| Description.Split | components/ExerciseArea.tsx:21 | `split` with the capturing pattern yields a tokenisation: plain parts in which no match starts, alternating with the leftmost matches |
| Description.TokenisesJoin | components/ExerciseArea.tsx:21 | a tokenisation has an odd number of parts, and joining them gives the text back |
| Description.SplitOddPartIsSpan | components/ExerciseArea.tsx:21 | every odd-indexed part of the split is a match, hence a bold or code span |
| Description.TokenisationUnique | components/ExerciseArea.tsx:21 | two tokenisations of the same text by the same advancing matcher are equal |
| Description.TokenisesCons | components/ExerciseArea.tsx:21 | a plain part free of matches, a match and a tokenisation of the rest make a tokenisation |
| Description.PartAt | components/ExerciseArea.tsx:21 | every part of a tokenisation is a stretch of the text; no match starts inside a plain part, and each odd-indexed part is exactly one match |
| Description.PlainPartHasNoSpan | components/ExerciseArea.tsx:21 | for a matcher that finds every span, no bold or code span lies anywhere inside a plain part |
| Description.SplitCharacterised | components/ExerciseArea.tsx:19-21 | a list of parts is a tokenisation of the text exactly when it is the split; the split joins back to the text, has an odd count, holds spans at odd indexes, and no span lies inside any of its plain parts |
| Description.Slice | components/ExerciseArea.tsx:27 | `slice(a, -b)` is the middle of the string when the ends do not cross, and empty when they do |
| Description.Classify | components/ExerciseArea.tsx:26-32 | a part that starts and ends with `**` becomes bold with `slice(2, -2)` of it; otherwise one that starts and ends with a backtick becomes code with `slice(1, -1)`; anything else stays plain text; the markup of the fragment is the part itself exactly when the part is not a lone `**`, `***` or backtick |
| Description.ClassifySpan | components/ExerciseArea.tsx:26-30 | a bold span renders as bold with the delimiters stripped; a code span renders as code with the backticks stripped |
| Description.Render | components/ExerciseArea.tsx:17-36 | one fragment per part, each the part's classification; an odd number of fragments with bold or code at every odd index; if no part is a lone delimiter, the fragments' markup is the text |
| Description.SampleBoldMatch | components/ExerciseArea.tsx:21 | the bold alternative matches the `**b**` span of the sample description, which also holds a code span |
| Description.SampleCodeMatch | components/ExerciseArea.tsx:21 | the code alternative matches the backtick span in the same sample |
| Description.SampleNoMatch | components/ExerciseArea.tsx:21 | no match starts in the sample's plain stretches |
| Description.SampleTailTokenises | components/ExerciseArea.tsx:21 | the sample from the end of its bold span tokenises as a space, the code span and an empty part |
| Description.SampleTokenises | components/ExerciseArea.tsx:21 | the whole sample tokenises as plain, bold, plain, code and an empty part |
| Description.SplitExample | components/ExerciseArea.tsx:21 | the sample splits into plain, bold, plain, code and a trailing empty part |
| Description.LoneBoldRendersEmpty | components/ExerciseArea.tsx:21-27 | a lone `**` is one plain part, yet it renders as an empty bold span |
| ExerciseRunner.Init | components/ExerciseArea.tsx:39-55 | the component mounts with the starting code on the edit tab, idle, with nothing set; it satisfies the invariant, and the exercise-change effect that fires on mount leaves it as it is |
| ExerciseRunner.ChangeExercise | components/ExerciseArea.tsx:50-55 | a new exercise restores its starting code and the edit tab and clears the console; the running flag is untouched |
| ExerciseRunner.StartRun | components/ExerciseArea.tsx:66-70 | starting a run sets the running flag, clears the result and the error, and shows the edit tab; the code is untouched |
| ExerciseRunner.FailureMessage | components/ExerciseArea.tsx:89-107 | no error message exactly when the response parsed with a `run` object |
| ExerciseRunner.Complete | components/ExerciseArea.tsx:96-110 | settlement clears the running flag and stores the `run` result verbatim, or else an error message; the other field, the code and the tab are left alone |
| ExerciseRunner.Apply | components/ExerciseArea.tsx:143-231 | only an exercise change replaces the exercise, only a run or a settlement touches the running flag, and every enabled event keeps the invariant |
| ExerciseRunner.Step | components/ExerciseArea.tsx:143-231 | an event takes effect exactly when its control is available (`Enabled`: run and reset disabled while pending, the editor only on the edit tab, copy only on the solution tab, clear only beside a result), and a step from a state satisfying the invariant reaches one that satisfies it |
| ExerciseRunner.Sent | components/ExerciseArea.tsx:73-87 | a request is sent exactly on a run press while idle, and it carries the editor's code as its one file |
| ExerciseRunner.TraceKeepsInv | components/ExerciseArea.tsx:66-110 | along any sequence of events, a pending run has neither result nor error set, and a result and an error are never set together |
| ExerciseRunner.ReachableInv | components/ExerciseArea.tsx:39-45 | every state reachable from the mounted component satisfies the invariant |
| ExerciseRunner.SettleSetsExactlyOne | components/ExerciseArea.tsx:89-110 | settling sets exactly one of the result and the error; each failure maps to its message: the network message, the parse message, the thrown `Error`'s message, or the unknown-error message |
| ExerciseRunner.NoSecondRequest | components/ExerciseArea.tsx:170-176 | while a run is pending, neither run nor reset has any effect, and no second request is sent |
| ExerciseRunner.RunThenSettle | components/ExerciseArea.tsx:66-110 | a run sends the editor's code as Python 3.10.0; after settling, the run is over, the edit tab shows, the code is unchanged, and exactly one of result and error is set |
| ExerciseRunner.ChangeExerciseOnMount | components/ExerciseArea.tsx:39-55 | the exercise-change effect on mount changes nothing, and from any idle state it yields the freshly mounted state |
| ExerciseRunner.ResetRestores | components/ExerciseArea.tsx:168-170 | reset restores the starting code whatever was typed, and a second reset changes nothing |
| ExerciseRunner.ResetOnEitherTab | components/ExerciseArea.tsx:166-173 | on either tab, a reset while no run is pending only puts the starting code back |
| ExerciseRunner.SwitchTab | components/ExerciseArea.tsx:142-163 | the tab buttons are never disabled: at any time, even with a run pending, a tab click changes the active tab and nothing else |
| ExerciseRunner.TypeCode | components/ExerciseArea.tsx:201-218 | typing is possible exactly on the edit tab, where it replaces the code and changes nothing else, with or without a pending run |
| ExerciseRunner.CopySolutionAnyTime | components/ExerciseArea.tsx:304-308 | on the solution tab, copying works even while a run is pending, and only writes the solution, the edit tab and a cleared result |
| ExerciseRunner.ClearOnlyOutput | components/ExerciseArea.tsx:229-231 | clearing the console only empties the result |
| ExerciseRunner.CopySolutionThenRun | components/ExerciseArea.tsx:304-308 | copying puts the solution in the editor, shows the edit tab and clears the result, but keeps the error set and starts no run; a run pressed next sends the solution |
| ExerciseRunner.ClearOutputOffered | components/ExerciseArea.tsx:229-231 | the clear button works exactly when the edit tab is showing, a result is set and no run is pending, and it leaves neither result nor error set |
| ExerciseRunner.StaleResultLands | components/ExerciseArea.tsx:50-110 | a run started on one exercise and settled after a switch to another sets its result under the second exercise |
| ExerciseRunner.SignalDescription | components/ExerciseArea.tsx:113-122 | the description differs from the signal name exactly for the five known signals |
| ExerciseRunner.SignalDescriptionProperties | components/ExerciseArea.tsx:113-122 | describing a description changes nothing, and distinct known signals get distinct descriptions |
| ExerciseRunner.StatusLabel | components/ExerciseArea.tsx:282 | the label is success exactly when the exit code is 0 and the signal is falsy, and abnormal otherwise |
| ExerciseRunner.SignalLine | components/ExerciseArea.tsx:276-280 | a signal line appears exactly for a truthy signal, and it reads the raw signal name exactly when the signal is not one of the five known ones |
| ExerciseRunner.StatusAgreesWithSignal | components/ExerciseArea.tsx:276-282 | a successful run shows no signal line, and a run with a signal line is labelled abnormal |
| ExerciseRunner.ConsoleAfterSettle | components/ExerciseArea.tsx:222-250 | on the edit tab the console is on the page while a run is pending; after it settles, the console stays exactly unless the outcome is an `Error` with an empty message, which is set but falsy |
| Navigation.FindIndex | App.tsx:365 | `findIndex` gives the first index with the id, or -1 when no section has it |
| Navigation.FindSection | App.tsx:79 | `find` gives nothing exactly when no section has the id, and otherwise the first section with it |
| Navigation.NextSection | App.tsx:364-367 | the next section of a section is the one right after its first occurrence, and the last section has none; for an id no section has, the lookup gives the first section |
| Navigation.ToggleCategory | App.tsx:83-89 | the clicked category's expansion flips, every other category keeps its state, and nothing else changes |
| Navigation.ToggleGroup | App.tsx:91-97 | the clicked group's expansion flips, every other group keeps its state, and nothing else changes |
| Navigation.ToggleOrder | App.tsx:83-97 | the other entries keep their order; an absent entry is appended at the end; toggling an absent entry twice restores the state |
| Navigation.AutoExpand | App.tsx:100-118 | the active section's category, and its group when truthy, become expanded; existing entries stay in place as a prefix; no duplicate is introduced; an unknown id changes nothing |
| Navigation.AutoExpandOnlyAdds | App.tsx:100-118 | nothing but the active section's category and group is added, and running the effect twice is running it once |
| Navigation.Select | App.tsx:100-118 | a click makes the clicked id the active one; a new id that some section has expands that section's category and truthy group, entries already expanded stay in place, an unknown id expands nothing; re-selecting the active id changes nothing; the width and the drag flag are untouched |
| Navigation.Resize | App.tsx:123-130 | the width changes only during a drag, and only to a mouse position strictly between 200 and 600, which it then takes; nothing else changes |
| Navigation.NavApply | App.tsx:83-130 | only a mouse move changes the width, only the two drag events change the drag flag, and every enabled event (`NavEnabled`: start only on the landing page with some section, next only under a lesson with a successor) keeps the width in range and the expanded lists free of duplicates |
| Navigation.NavTraceKeepsInv | App.tsx:68-130 | the invariant holds along any sequence of enabled events |
| Navigation.InitNav | App.tsx:64-118 | the application mounts on the landing page at width 288, not dragging, with the auto-expand effect applied to `home`: it satisfies the invariant, a second run of the effect changes nothing, and with no section carrying the id `home` nothing is expanded |
| Navigation.NavReachableInv | App.tsx:64-130 | from the mounted state, every reachable state satisfies the invariant |
| Navigation.StartAndHome | App.tsx:327-330 | the start button selects the first section and expands its category; when the first section's id is `home` itself, nothing changes; the home button returns to the landing page |
| Navigation.NavEventEffects | App.tsx:83-139 | a section, home or start click selects that section; a next click selects the section right after the active one's first occurrence; a category or group click toggles that entry; pressing and releasing the drag handle only set and clear the drag flag; a mouse move resizes |
| Navigation.DragResizes | App.tsx:120-139 | pressing the handle, moving to `x` and releasing leaves the width at `x` when 200 < x < 600 and unchanged otherwise, with the drag flag cleared and nothing else changed |
| Navigation.Categories | App.tsx:73 | the categories have no duplicates and include every section's category |
| Navigation.CategoriesProperties | App.tsx:73 | the categories are the distinct categories of the sections, in order of first occurrence |
| Navigation.CategorySections | App.tsx:194 | a section is listed under a category exactly when it has that category |
| Navigation.Groups | App.tsx:198 | the groups of a category have no duplicates and include the truthy group of each of its sections |
| Navigation.FilterAfterMapGroups | App.tsx:198 | mapping the sections to their groups and then dropping the falsy values gives the same names as dropping the ungrouped sections first and then mapping |
| Navigation.GroupsProperties | App.tsx:198 | the groups of a category are the distinct truthy groups of its sections, none empty, in order of first occurrence |
| Navigation.GroupNameOccurs | App.tsx:198 | a name is among a category's mapped group names exactly when some section of that category has it as its truthy group |
| Navigation.GroupSections | App.tsx:229 | a section is listed under a group of a category exactly when it has that category and that group |
| Navigation.Ungrouped | App.tsx:199 | a section is listed as ungrouped in a category exactly when it has that category and no truthy group |
| Navigation.GroupingPartitions | App.tsx:194-229 | within a category, a section is listed as ungrouped exactly when it has no truthy group; otherwise it is listed under its own group and under no other |

## Left out

- Rendering, styling, scrolling and the mobile sidebar toggle (`isSidebarOpen`, `window.innerWidth`) carry no state the model needs and are left out.
- The `fetch` call, the HTTP response and JSON parsing are not modelled as I/O. They become the `Outcome` parameter of `Settle`.
- A `run` object with fields of unexpected types is not modelled. The four fields are taken as the service's documented types.
- The mouse position is an unbounded integer. Browsers may report fractional pixels, and those are not modelled.
- Pressing start when there are no sections throws in the source. The model makes the start event unavailable in that case.
- The page selection for a section, which picks a lesson, exercise or quiz page, is not modelled. Quizzes and the static course data are not part of this model.
- `components/CodeBlock.tsx` (the clipboard copy and its timed "copied" flag) is not part of this model: it is I/O with a timer.
- The auto-scroll of the console (`components/ExerciseArea.tsx:58-64`) is a timer-driven side effect on the page and is left out.
- `ExerciseRunner.Enabled` models a disabled or hidden button as an event that cannot fire. The source's visual states of those buttons are not modelled.
- React's batching of state updates is collapsed into one atomic step per event. The auto-expand effect is folded into `Select`, and into `InitNav` for the mount. A click on the active id sets the same value, so React does not re-run the effect, and `Select` changes nothing.
- Strings are sequences of Unicode scalar values, not of UTF-16 code units. The delimiters and line terminators are all single code units, so the split is unaffected, but a lone surrogate in a description cannot be represented.

=== FILE: description.dfy ===
/** The exercise-description renderer (components/ExerciseArea.tsx:17-36).

    The description text is split with the global regular expression
    `(\*\*.*?\*\*|`.*?`)`: at each position, leftmost first, try a `**`
    span with the shortest possible body, then a backtick span with the
    shortest possible body; `.` never crosses a line terminator. Because the
    whole alternation is a capture group, `split` returns the text between
    matches interleaved with the matches themselves. Each resulting part is
    then classified as bold, inline code or plain text by its first and last
    characters alone. */
module Description {
  import opened Types
  import Lists

  /** The characters JavaScript's `.` refuses to match. */
  predicate IsLineTerminator(c: char)
  {
    c == '\n' || c == '\r' || c == '\U{2028}' || c == '\U{2029}'
  }

  /** No line terminator among `t[from..to]`. */
  predicate Clean(t: string, from: nat, to: nat)
    requires from <= to <= |t|
  {
    forall j :: from <= j < to ==> !IsLineTerminator(t[j])
  }

  /** `delim` occurs in `t` at index `k`. */
  predicate DelimAt(t: string, k: nat, delim: string)
  {
    k + |delim| <= |t| && t[k..k + |delim|] == delim
  }

  /** The lazy `.*?` followed by a closing delimiter, started at `from`:
      the first index at which `delim` occurs with no line terminator
      crossed on the way, if there is one. `FindCloseFirst` and
      `FindCloseNone` state what it finds. */
  function FindClose(t: string, from: nat, delim: string): (r: Option<nat>)
    requires from <= |t| && |delim| > 0
    ensures r.Some? ==> from <= r.value && r.value + |delim| <= |t|
    decreases |t| - from
  {
    if from + |delim| > |t| then None
    else if t[from..from + |delim|] == delim then Some(from)
    else if IsLineTerminator(t[from]) then None
    else FindClose(t, from + 1, delim)
  }

  /** A closing delimiter found is the first one, reached without crossing
      a line terminator. */
  lemma {:induction false} FindCloseFirst(t: string, from: nat, delim: string)
    requires from <= |t| && |delim| > 0
    requires FindClose(t, from, delim).Some?
    ensures DelimAt(t, FindClose(t, from, delim).value, delim)
    ensures Clean(t, from, FindClose(t, from, delim).value)
    ensures forall j :: from <= j < FindClose(t, from, delim).value ==> !DelimAt(t, j, delim)
    decreases |t| - from
  {
    if !DelimAt(t, from, delim) {
      FindCloseFirst(t, from + 1, delim);
    }
  }

  /** When no closing delimiter is found, every later occurrence of the
      delimiter lies beyond a line terminator. */
  lemma {:induction false} FindCloseNone(t: string, from: nat, delim: string)
    requires from <= |t| && |delim| > 0
    requires FindClose(t, from, delim).None?
    ensures forall k :: from <= k <= |t| && Clean(t, from, k) ==> !DelimAt(t, k, delim)
    decreases |t| - from
  {
    if from + |delim| <= |t| && !DelimAt(t, from, delim) && !IsLineTerminator(t[from]) {
      FindCloseNone(t, from + 1, delim);
      forall k | from <= k <= |t| && Clean(t, from, k)
        ensures !DelimAt(t, k, delim)
      {
        if k > from {
          assert Clean(t, from + 1, k);
        }
      }
    }
  }

  /** The regular expression tried at exactly position `q`: the end of the
      match when one starts there. The bold alternative is tried first. */
  function MatchAt(t: string, q: nat): (r: Option<nat>)
    requires q <= |t|
    ensures r.Some? ==> q + 2 <= r.value <= |t|
  {
    if DelimAt(t, q, "**") && FindClose(t, q + 2, "**").Some? then
      Some(FindClose(t, q + 2, "**").value + 2)
    else if q < |t| && t[q] == '`' && FindClose(t, q + 1, "`").Some? then
      Some(FindClose(t, q + 1, "`").value + 1)
    else None
  }

  /** `**body**` on one line, closed at the first `**` after the opening. */
  predicate IsBoldSpan(s: string)
  {
    && |s| >= 4
    && DelimAt(s, 0, "**")
    && DelimAt(s, |s| - 2, "**")
    && Clean(s, 2, |s| - 2)
    && forall j :: 2 <= j < |s| - 2 ==> !DelimAt(s, j, "**")
  }

  /** `` `body` `` on one line, with no backtick in the body. */
  predicate IsCodeSpan(s: string)
  {
    && |s| >= 2
    && s[0] == '`'
    && s[|s| - 1] == '`'
    && Clean(s, 1, |s| - 1)
    && forall j :: 1 <= j < |s| - 1 ==> s[j] != '`'
  }

  /** Occurrences of a delimiter inside a slice are occurrences in the
      whole text, shifted. */
  lemma DelimAtSlice(t: string, q: nat, e: nat, j: nat, delim: string)
    requires q <= e <= |t| && j + |delim| <= e - q
    ensures DelimAt(t[q..e], j, delim) <==> DelimAt(t, q + j, delim)
  {
    var a := t[q..e][j..j + |delim|];
    var b := t[q + j..q + j + |delim|];
    forall i | 0 <= i < |delim|
      ensures a[i] == b[i]
    {
    }
    assert a == b;
  }

  /** A `**` opening closed by `FindClose` delimits a bold span. */
  lemma BoldMatchIsSpan(t: string, q: nat, k: nat)
    requires DelimAt(t, q, "**") && q + 2 <= k
    requires DelimAt(t, k, "**") && Clean(t, q + 2, k)
    requires forall j :: q + 2 <= j < k ==> !DelimAt(t, j, "**")
    ensures IsBoldSpan(t[q..k + 2])
  {
    var s := t[q..k + 2];
    DelimAtSlice(t, q, k + 2, 0, "**");
    DelimAtSlice(t, q, k + 2, |s| - 2, "**");
    forall j | 2 <= j < |s| - 2
      ensures !DelimAt(s, j, "**")
    {
      DelimAtSlice(t, q, k + 2, j, "**");
    }
    forall j | 2 <= j < |s| - 2
      ensures !IsLineTerminator(s[j])
    {
      assert s[j] == t[q + j];
    }
  }

  /** A backtick opening closed by `FindClose` delimits a code span. */
  lemma CodeMatchIsSpan(t: string, q: nat, k: nat)
    requires q < |t| && t[q] == '`' && q + 1 <= k
    requires DelimAt(t, k, "`") && Clean(t, q + 1, k)
    requires forall j :: q + 1 <= j < k ==> !DelimAt(t, j, "`")
    ensures IsCodeSpan(t[q..k + 1])
  {
    var s := t[q..k + 1];
    assert t[k..k + 1] == [t[k]];
    forall j | 1 <= j < |s| - 1
      ensures !IsLineTerminator(s[j]) && s[j] != '`'
    {
      assert s[j] == t[q + j];
      assert !DelimAt(t, q + j, "`");
      assert t[q + j..q + j + 1] == [t[q + j]];
    }
  }

  /** A `**` whose closing `**` is found on the same line opens a bold
      span. */
  lemma BoldCloseIsSpan(t: string, q: nat)
    requires q <= |t| && DelimAt(t, q, "**") && FindClose(t, q + 2, "**").Some?
    ensures IsBoldSpan(t[q..FindClose(t, q + 2, "**").value + 2])
  {
    FindCloseFirst(t, q + 2, "**");
    BoldMatchIsSpan(t, q, FindClose(t, q + 2, "**").value);
  }

  /** A backtick whose closing backtick is found on the same line opens a
      code span. */
  lemma CodeCloseIsSpan(t: string, q: nat)
    requires q < |t| && t[q] == '`' && FindClose(t, q + 1, "`").Some?
    ensures IsCodeSpan(t[q..FindClose(t, q + 1, "`").value + 1])
  {
    var k := FindClose(t, q + 1, "`").value;
    FindCloseFirst(t, q + 1, "`");
    assert q + 1 <= k && DelimAt(t, k, "`") && Clean(t, q + 1, k);
    CodeMatchIsSpan(t, q, k);
  }

  /** Where the bold alternative succeeds, the match ends after its
      closing `**`. */
  lemma BoldMatchEnd(t: string, q: nat)
    requires q <= |t| && DelimAt(t, q, "**") && FindClose(t, q + 2, "**").Some?
    ensures MatchAt(t, q) == Some(FindClose(t, q + 2, "**").value + 2)
  {
  }

  /** Where the bold alternative fails and the code alternative succeeds,
      the match ends after the closing backtick. */
  lemma CodeMatchEnd(t: string, q: nat)
    requires q < |t| && t[q] == '`' && FindClose(t, q + 1, "`").Some?
    requires !(DelimAt(t, q, "**") && FindClose(t, q + 2, "**").Some?)
    ensures MatchAt(t, q) == Some(FindClose(t, q + 1, "`").value + 1)
  {
  }

  /** Every match of the regular expression is a bold span or a code span. */
  lemma MatchIsSpan(t: string, q: nat)
    requires q <= |t| && MatchAt(t, q).Some?
    ensures IsBoldSpan(t[q..MatchAt(t, q).value]) || IsCodeSpan(t[q..MatchAt(t, q).value])
  {
    if DelimAt(t, q, "**") && FindClose(t, q + 2, "**").Some? {
      BoldMatchEnd(t, q);
      BoldCloseIsSpan(t, q);
    } else if q < |t| && t[q] == '`' && FindClose(t, q + 1, "`").Some? {
      CodeMatchEnd(t, q);
      CodeCloseIsSpan(t, q);
    } else {
      assert false;
    }
  }

  /** A delimiter that occurs at `k`, with no earlier occurrence and no line
      terminator between `from` and `k`, is what `FindClose` finds. */
  lemma {:induction false} FindCloseAt(t: string, from: nat, k: nat, delim: string)
    requires |delim| > 0 && from <= k
    requires DelimAt(t, k, delim) && Clean(t, from, k)
    requires forall j :: from <= j < k ==> !DelimAt(t, j, delim)
    ensures FindClose(t, from, delim) == Some(k)
    decreases k - from
  {
    if from < k {
      assert !DelimAt(t, from, delim);
      FindCloseAt(t, from + 1, k, delim);
    }
  }

  /** A bold span in the text is matched by the regular expression. */
  lemma BoldSpanIsMatch(t: string, q: nat, e: nat)
    requires q <= e <= |t| && IsBoldSpan(t[q..e])
    ensures MatchAt(t, q) == Some(e)
  {
    var s := t[q..e];
    DelimAtSlice(t, q, e, 0, "**");
    DelimAtSlice(t, q, e, |s| - 2, "**");
    forall j | q + 2 <= j < e - 2
      ensures !DelimAt(t, j, "**")
    {
      DelimAtSlice(t, q, e, j - q, "**");
    }
    forall j | q + 2 <= j < e - 2
      ensures !IsLineTerminator(t[j])
    {
      assert t[j] == s[j - q];
    }
    FindCloseAt(t, q + 2, e - 2, "**");
  }

  /** A code span in the text is matched by the regular expression. */
  lemma CodeSpanIsMatch(t: string, q: nat, e: nat)
    requires q <= e <= |t| && IsCodeSpan(t[q..e])
    ensures MatchAt(t, q) == Some(e)
  {
    var s := t[q..e];
    assert t[q] == s[0] == '`';
    assert !DelimAt(t, q, "**");
    assert t[e - 1..e] == [t[e - 1]];
    forall j | q + 1 <= j < e - 1
      ensures !DelimAt(t, j, "`") && !IsLineTerminator(t[j])
    {
      assert t[j] == s[j - q];
      assert t[j..j + 1] == [t[j]];
    }
    FindCloseAt(t, q + 1, e - 1, "`");
  }

  /** The regular expression matches from `q` to `e` exactly when the text
      between them is a one-line bold span or a one-line code span. */
  lemma MatchAtCharacterised(t: string, q: nat, e: nat)
    requires q <= |t|
    ensures MatchAt(t, q) == Some(e) <==> q <= e <= |t| && (IsBoldSpan(t[q..e]) || IsCodeSpan(t[q..e]))
  {
    if MatchAt(t, q) == Some(e) {
      MatchIsSpan(t, q);
    } else if q <= e <= |t| {
      NoMatchNoSpan(t, q, e);
    }
  }

  /** Where the regular expression does not match from `q` to `e`, the text
      between them is no span. */
  lemma NoMatchNoSpan(t: string, q: nat, e: nat)
    requires q <= e <= |t| && MatchAt(t, q) != Some(e)
    ensures !IsBoldSpan(t[q..e]) && !IsCodeSpan(t[q..e])
  {
    if IsBoldSpan(t[q..e]) {
      BoldSpanIsMatch(t, q, e);
    } else if IsCodeSpan(t[q..e]) {
      CodeSpanIsMatch(t, q, e);
    }
  }

  /** The regular expression as a total function of the start position. */
  function Matcher(t: string): nat -> Option<nat>
  {
    (q: nat) => if q <= |t| then MatchAt(t, q) else None
  }

  /** What the splitting loop relies on of a matcher for `t`: a match found
      at `q` is non-empty and ends inside the text. */
  predicate Advances(t: string, m: nat -> Option<nat>)
  {
    forall q: nat :: q <= |t| && m(q).Some? ==> q < m(q).value <= |t|
  }

  /** Every match the matcher reports is a bold or a code span. */
  predicate FindsSpans(t: string, m: nat -> Option<nat>)
  {
    forall q: nat :: q <= |t| && m(q).Some? && m(q).value <= |t| ==>
      q <= m(q).value && (IsBoldSpan(t[q..m(q).value]) || IsCodeSpan(t[q..m(q).value]))
  }

  /** The regular expression is a matcher the splitting loop can use, and
      it only finds spans. */
  lemma MatcherProperties(t: string)
    ensures Advances(t, Matcher(t))
    ensures FindsSpans(t, Matcher(t))
  {
    forall q: nat | q <= |t| && Matcher(t)(q).Some?
      ensures IsBoldSpan(t[q..Matcher(t)(q).value]) || IsCodeSpan(t[q..Matcher(t)(q).value])
    {
      MatchIsSpan(t, q);
    }
  }

  /** A bold or code span, the two shapes the regular expression matches. */
  predicate IsSpan(s: string)
  {
    IsBoldSpan(s) || IsCodeSpan(s)
  }

  /** `t[q..e]` is a span. */
  predicate SpanAt(t: string, q: nat, e: nat)
  {
    q <= e <= |t| && IsSpan(t[q..e])
  }

  /** Every bold or code span of the text is a match of the matcher. */
  predicate FindsAllSpans(t: string, m: nat -> Option<nat>)
  {
    forall q: nat, e: nat :: q <= e <= |t| && SpanAt(t, q, e) ==> m(q) == Some(e)
  }

  /** The regular expression matches every span of the text. */
  lemma MatcherFindsAllSpans(t: string)
    ensures FindsAllSpans(t, Matcher(t))
  {
    forall q: nat, e: nat | q <= e <= |t| && SpanAt(t, q, e)
      ensures Matcher(t)(q) == Some(e)
    {
      MatchAtCharacterised(t, q, e);
    }
  }

  /** Declarative description of `t[p..].split(regex)` for the matcher `m`:
      a plain part in which no match starts, then either the end of the
      text, or a match starting right after the plain part followed by the
      tokenisation of the rest. */
  predicate Tokenises(t: string, m: nat -> Option<nat>, p: nat, parts: seq<string>)
    decreases |parts|
  {
    && p <= |t|
    && |parts| >= 1
    && p + |parts[0]| <= |t|
    && t[p..p + |parts[0]|] == parts[0]
    && (forall j: nat :: p <= j < p + |parts[0]| ==> m(j).None?)
    && if |parts| == 1 then p + |parts[0]| == |t|
       else
         var q := p + |parts[0]|;
         && |parts| >= 3
         && m(q) == Some(q + |parts[1]|)
         && q + |parts[1]| <= |t|
         && t[q..q + |parts[1]|] == parts[1]
         && Tokenises(t, m, q + |parts[1]|, parts[2..])
  }

  /** The scanning loop of `String.prototype.split` with a regular
      expression: `p` is where the pending plain part began and `q` the next
      position to try. */
  function SplitFrom(t: string, m: nat -> Option<nat>, p: nat, q: nat): (parts: seq<string>)
    requires Advances(t, m)
    requires p <= q <= |t|
    requires forall j: nat :: p <= j < q ==> m(j).None?
    ensures Tokenises(t, m, p, parts)
    decreases |t| - q
  {
    if q == |t| then [t[p..]]
    else
      match m(q)
      case Some(e) =>
        var rest := SplitFrom(t, m, e, e);
        var parts := [t[p..q], t[q..e]] + rest;
        assert parts[2..] == rest;
        parts
      case None => SplitFrom(t, m, p, q + 1)
  }

  /** `text.split(/(\*\*.*?\*\*|`.*?`)/g)`. */
  function Split(t: string): (parts: seq<string>)
    ensures Tokenises(t, Matcher(t), 0, parts)
  {
    MatcherProperties(t);
    SplitFrom(t, Matcher(t), 0, 0)
  }

  /** The concatenation of a list of strings (`parts.join('')`). */
  function Concat(parts: seq<string>): string
  {
    if |parts| == 0 then "" else parts[0] + Concat(parts[1..])
  }

  /** A tokenisation has an odd number of parts and glues back to the text
      it came from. */
  lemma {:induction false} TokenisesJoin(t: string, m: nat -> Option<nat>, p: nat, parts: seq<string>)
    requires Tokenises(t, m, p, parts)
    ensures |parts| % 2 == 1
    ensures Concat(parts) == t[p..]
    decreases |parts|
  {
    var q := p + |parts[0]|;
    if |parts| == 1 {
      assert Concat(parts) == parts[0] + Concat([]);
    } else {
      var e := q + |parts[1]|;
      TokenisesJoin(t, m, e, parts[2..]);
      assert parts[1..][1..] == parts[2..];
      assert Concat(parts) == parts[0] + (parts[1] + Concat(parts[2..]));
      assert t[p..] == t[p..q] + t[q..e] + t[e..];
    }
  }

  /** Where part `i` of a tokenisation sits in the text: at `a`, with no
      match starting inside it when it is a plain part, and with a match
      covering exactly it when it is an odd-indexed part. */
  lemma {:induction false} PartAt(t: string, m: nat -> Option<nat>, p: nat, parts: seq<string>, i: nat) returns (a: nat)
    requires Tokenises(t, m, p, parts) && i < |parts|
    ensures p <= a && a + |parts[i]| <= |t| && t[a..a + |parts[i]|] == parts[i]
    ensures i % 2 == 0 ==> forall j: nat :: a <= j < a + |parts[i]| ==> m(j).None?
    ensures i % 2 == 1 ==> m(a) == Some(a + |parts[i]|)
    decreases i
  {
    if i == 0 {
      a := p;
    } else if i == 1 {
      a := p + |parts[0]|;
    } else {
      TokenisesRest(t, m, p, parts);
      assert parts[2..][i - 2] == parts[i];
      a := PartAt(t, m, p + |parts[0]| + |parts[1]|, parts[2..], i - 2);
    }
  }

  /** Every odd-indexed part of the split is a match of the regular
      expression, so it is a bold or a code span. */
  lemma SplitOddPartIsSpan(t: string, i: nat)
    requires i < |Split(t)| && i % 2 == 1
    ensures IsBoldSpan(Split(t)[i]) || IsCodeSpan(Split(t)[i])
  {
    var a := PartAt(t, Matcher(t), 0, Split(t), i);
    assert MatchAt(t, a) == Some(a + |Split(t)[i]|);
    MatchIsSpan(t, a);
  }

  /** Two tokenisations from the same position stop their first plain part
      at the same place: the first position that is the end of the text or
      where a match starts. */
  lemma FirstPartsAgree(t: string, m: nat -> Option<nat>, p: nat, a: seq<string>, b: seq<string>)
    requires Tokenises(t, m, p, a) && Tokenises(t, m, p, b)
    ensures |a[0]| <= |b[0]|
  {
    if |b[0]| < |a[0]| {
      assert false;
    }
  }

  /** The parts after the first plain part and the first match tokenise
      the rest of the text. */
  lemma TokenisesRest(t: string, m: nat -> Option<nat>, p: nat, parts: seq<string>)
    requires Tokenises(t, m, p, parts) && |parts| > 1
    ensures Tokenises(t, m, p + |parts[0]| + |parts[1]|, parts[2..])
  {
  }

  /** A plain part with no match starting in it, then a match, in front of
      a tokenisation of the rest, tokenise the text from the plain part on:
      the converse of `TokenisesRest`. */
  lemma TokenisesCons(t: string, m: nat -> Option<nat>, p: nat, parts: seq<string>)
    requires |parts| >= 3 && p + |parts[0]| + |parts[1]| <= |t|
    requires t[p..p + |parts[0]|] == parts[0]
    requires t[p + |parts[0]|..p + |parts[0]| + |parts[1]|] == parts[1]
    requires forall j: nat :: p <= j < p + |parts[0]| ==> m(j).None?
    requires m(p + |parts[0]|) == Some(p + |parts[0]| + |parts[1]|)
    requires Tokenises(t, m, p + |parts[0]| + |parts[1]|, parts[2..])
    ensures Tokenises(t, m, p, parts)
  {
  }

  /** No bold or code span lies inside any plain part of a tokenisation by
      a matcher that finds every span: every span of the text was cut out as
      a match. */
  lemma PlainPartHasNoSpan(t: string, m: nat -> Option<nat>, p: nat, parts: seq<string>, i: nat, j: nat, e: nat)
    requires Tokenises(t, m, p, parts) && FindsAllSpans(t, m)
    requires i < |parts| && i % 2 == 0 && j <= e <= |parts[i]|
    ensures !IsSpan(parts[i][j..e])
  {
    var a := PartAt(t, m, p, parts, i);
    var n := |parts[i]|;
    assert parts[i][j..e] == t[a + j..a + e] by {
      forall k | 0 <= k < e - j
        ensures parts[i][j..e][k] == t[a + j..a + e][k]
      {
        assert parts[i][j + k] == t[a..a + n][j + k];
      }
    }
    if j < e {
      assert m(a + j).None?;
      assert !SpanAt(t, a + j, a + e);
    } else {
      assert |parts[i][j..e]| == 0;
    }
  }

  /** A text has only one tokenisation. */
  lemma {:induction false} TokenisationUnique(t: string, m: nat -> Option<nat>, p: nat, a: seq<string>, b: seq<string>)
    requires Advances(t, m)
    requires Tokenises(t, m, p, a) && Tokenises(t, m, p, b)
    ensures a == b
    decreases |a|
  {
    FirstPartsAgree(t, m, p, a, b);
    FirstPartsAgree(t, m, p, b, a);
    var q := p + |a[0]|;
    assert a[0] == t[p..q] == b[0];
    if |a| == 1 || |b| == 1 {
      assert |a| == 1 && |b| == 1;
    } else {
      assert a[1] == b[1];
      TokenisationUnique(t, m, q + |a[1]|, a[2..], b[2..]);
      assert a == [a[0], a[1]] + a[2..];
      assert b == [b[0], b[1]] + b[2..];
    }
  }

  /** `Split` is the tokenisation: a list of parts describes the text as the
      regular expression splits it exactly when it is `Split(t)`. Joining the
      parts gives the text back, there is an odd number of them, and every
      odd-indexed part is a bold or a code span. */
  lemma SplitCharacterised(t: string, parts: seq<string>)
    ensures Tokenises(t, Matcher(t), 0, parts) <==> parts == Split(t)
    ensures Concat(Split(t)) == t
    ensures |Split(t)| % 2 == 1
    ensures forall i :: 0 <= i < |Split(t)| && i % 2 == 1 ==>
      IsBoldSpan(Split(t)[i]) || IsCodeSpan(Split(t)[i])
    ensures forall i, j, e :: 0 <= i < |Split(t)| && i % 2 == 0 && 0 <= j <= e <= |Split(t)[i]| ==>
      !IsBoldSpan(Split(t)[i][j..e]) && !IsCodeSpan(Split(t)[i][j..e])
  {
    MatcherProperties(t);
    MatcherFindsAllSpans(t);
    forall i, j, e | 0 <= i < |Split(t)| && i % 2 == 0 && 0 <= j <= e <= |Split(t)[i]|
      ensures !IsBoldSpan(Split(t)[i][j..e]) && !IsCodeSpan(Split(t)[i][j..e])
    {
      PlainPartHasNoSpan(t, Matcher(t), 0, Split(t), i, j, e);
    }
    if Tokenises(t, Matcher(t), 0, parts) {
      TokenisationUnique(t, Matcher(t), 0, parts, Split(t));
    }
    TokenisesJoin(t, Matcher(t), 0, Split(t));
    forall i | 0 <= i < |Split(t)| && i % 2 == 1
      ensures IsBoldSpan(Split(t)[i]) || IsCodeSpan(Split(t)[i])
    {
      SplitOddPartIsSpan(t, i);
    }
  }

  /** How one part renders. */
  datatype Fragment = Bold(text: string) | Code(text: string) | Plain(text: string)

  predicate StartsWith(s: string, prefix: string)
  {
    |prefix| <= |s| && s[..|prefix|] == prefix
  }

  predicate EndsWith(s: string, suffix: string)
  {
    |suffix| <= |s| && s[|s| - |suffix|..] == suffix
  }

  /** `s.slice(start, -fromEnd)` for a positive `fromEnd`: both ends are
      clamped into the string, and a crossed range gives "". */
  function Slice(s: string, start: nat, fromEnd: nat): (r: string)
    requires fromEnd > 0
    ensures start + fromEnd <= |s| ==> r == s[start..|s| - fromEnd]
    ensures start + fromEnd >= |s| ==> r == ""
  {
    var b := if start <= |s| then start else |s|;
    var e := if fromEnd <= |s| then |s| - fromEnd else 0;
    if b < e then s[b..e] else ""
  }

  /** The classification applied to every part of the split, plain parts
      included. It loses nothing except on a lone delimiter: the markup of
      the fragment is the part itself exactly when the part is not a lone
      `**`, `***` or backtick. */
  function Classify(part: string): (f: Fragment)
    ensures f.Bold? <==> StartsWith(part, "**") && EndsWith(part, "**")
    ensures f.Code? <==> !f.Bold? && StartsWith(part, "`") && EndsWith(part, "`")
    ensures f.Bold? ==> f.text == Slice(part, 2, 2)
    ensures f.Code? ==> f.text == Slice(part, 1, 1)
    ensures f.Plain? ==> f.text == part
    ensures Source(f) == part <==> !LoneDelimiter(part)
  {
    if StartsWith(part, "**") && EndsWith(part, "**") then
      BoldShapedRoundTrip(part);
      Bold(Slice(part, 2, 2))
    else if StartsWith(part, "`") && EndsWith(part, "`") then
      CodeShapedRoundTrip(part);
      Code(Slice(part, 1, 1))
    else
      UndelimitedIsNotLone(part);
      Plain(part)
  }

  /** The markup a fragment stands for. */
  function Source(f: Fragment): string
  {
    match f
    case Bold(s) => "**" + s + "**"
    case Code(s) => "`" + s + "`"
    case Plain(s) => s
  }

  /** The parts that cannot be told apart from an empty span: a lone `**`,
      `***` or backtick. */
  predicate LoneDelimiter(part: string)
  {
    part == "**" || part == "***" || part == "`"
  }

  /** A part that neither starts and ends with `**` nor starts and ends
      with a backtick is no lone delimiter. */
  lemma UndelimitedIsNotLone(part: string)
    requires !(StartsWith(part, "**") && EndsWith(part, "**"))
    requires !(StartsWith(part, "`") && EndsWith(part, "`"))
    ensures !LoneDelimiter(part)
  {
    assert StartsWith("**", "**") && EndsWith("**", "**");
    assert "***"[..2] == "**" && "***"[1..] == "**";
    assert StartsWith("`", "`") && EndsWith("`", "`");
  }


  /** A part that starts and ends with `**` is its stripped body between
      two `**` exactly when it is not a lone delimiter. */
  lemma BoldShapedRoundTrip(part: string)
    requires StartsWith(part, "**") && EndsWith(part, "**")
    ensures "**" + Slice(part, 2, 2) + "**" == part <==> !LoneDelimiter(part)
  {
    var inner := Slice(part, 2, 2);
    if |part| >= 4 {
      assert inner == part[2..|part| - 2];
      assert part == part[..2] + inner + part[|part| - 2..];
    } else {
      assert inner == "";
      assert |"**" + inner + "**"| == 4;
      assert part[0] == '*' && part[1] == '*';
      assert part[|part| - 1] == '*';
      if |part| == 2 {
        assert part == "**";
      } else {
        assert part == "***";
      }
    }
  }

  /** A part that starts and ends with a backtick, and is not `**`-shaped,
      is its stripped body between two backticks exactly when it is not a
      lone backtick. */
  lemma CodeShapedRoundTrip(part: string)
    requires !(StartsWith(part, "**") && EndsWith(part, "**"))
    requires StartsWith(part, "`") && EndsWith(part, "`")
    ensures "`" + Slice(part, 1, 1) + "`" == part <==> !LoneDelimiter(part)
  {
    var inner := Slice(part, 1, 1);
    assert part[0] == '`';
    if |part| >= 2 {
      assert inner == part[1..|part| - 1];
      assert part == part[..1] + inner + part[|part| - 1..];
      assert part != "**" && part != "***";
    } else {
      assert part == "`";
      assert |"`" + inner + "`"| == 2;
    }
  }

  /** A bold span starts and ends with `**`, so it renders bold. */
  lemma BoldSpanClassified(part: string)
    requires IsBoldSpan(part)
    ensures Classify(part) == Bold(part[2..|part| - 2])
  {
    assert part[..2] == part[0..2];
    assert StartsWith(part, "**") && EndsWith(part, "**");
    assert Slice(part, 2, 2) == part[2..|part| - 2];
  }

  /** A code span starts and ends with a backtick but not with `**`, so it
      renders as code. */
  lemma CodeSpanClassified(part: string)
    requires IsCodeSpan(part)
    ensures Classify(part) == Code(part[1..|part| - 1])
  {
    assert part[..1] == [part[0]];
    assert part[|part| - 1..] == [part[|part| - 1]];
    assert !StartsWith(part, "**");
    assert StartsWith(part, "`") && EndsWith(part, "`");
    assert Slice(part, 1, 1) == part[1..|part| - 1];
  }

  /** A bold span renders bold with its delimiters stripped; a code span
      renders as code with its backticks stripped. */
  lemma ClassifySpan(part: string)
    requires IsBoldSpan(part) || IsCodeSpan(part)
    ensures IsBoldSpan(part) ==> Classify(part) == Bold(part[2..|part| - 2])
    ensures IsCodeSpan(part) ==> Classify(part) == Code(part[1..|part| - 1])
  {
    if IsBoldSpan(part) {
      BoldSpanClassified(part);
    }
    if IsCodeSpan(part) {
      CodeSpanClassified(part);
    }
  }

  /** What `DescriptionRenderer` puts on the page for a text: one fragment
      per part of the split. The fragments alternate text and spans: there
      is an odd number of them and every odd-indexed one is bold or code.
      Unless a part is a lone delimiter, the fragments' markup is the text. */
  function Render(t: string): (fs: seq<Fragment>)
    ensures |fs| == |Split(t)|
    ensures forall i :: 0 <= i < |fs| ==> fs[i] == Classify(Split(t)[i])
    ensures |fs| % 2 == 1
    ensures forall i :: 0 <= i < |fs| && i % 2 == 1 ==> fs[i].Bold? || fs[i].Code?
    ensures (forall i :: 0 <= i < |Split(t)| ==> !LoneDelimiter(Split(t)[i])) ==> Markup(fs) == t
  {
    RenderedShape(t);
    Lists.Map(Split(t), Classify)
  }

  /** The markup a list of fragments stands for. */
  function Markup(fs: seq<Fragment>): string
  {
    if |fs| == 0 then "" else Source(fs[0]) + Markup(fs[1..])
  }

  /** Classifying parts none of which is a lone delimiter loses nothing. */
  lemma {:induction false} MarkupOfClassified(parts: seq<string>)
    requires forall i :: 0 <= i < |parts| ==> !LoneDelimiter(parts[i])
    ensures Markup(Lists.Map(parts, Classify)) == Concat(parts)
  {
    if |parts| > 0 {
      var fs := Lists.Map(parts, Classify);
      assert fs[1..] == Lists.Map(parts[1..], Classify);
      MarkupOfClassified(parts[1..]);
    }
  }

  /** The rendered description alternates text and spans: there is an odd
      number of fragments and every odd-indexed one is bold or code. Unless
      a plain part is a lone delimiter, the markup of the fragments is the
      text itself. */
  lemma RenderedShape(t: string)
    ensures |Lists.Map(Split(t), Classify)| % 2 == 1
    ensures forall i :: 0 <= i < |Lists.Map(Split(t), Classify)| && i % 2 == 1 ==>
      Lists.Map(Split(t), Classify)[i].Bold? || Lists.Map(Split(t), Classify)[i].Code?
    ensures (forall i :: 0 <= i < |Split(t)| ==> !LoneDelimiter(Split(t)[i])) ==>
      Markup(Lists.Map(Split(t), Classify)) == t
  {
    var parts := Split(t);
    var fs := Lists.Map(Split(t), Classify);
    SplitCharacterised(t, parts);
    forall i | 0 <= i < |fs| && i % 2 == 1
      ensures fs[i].Bold? || fs[i].Code?
    {
      ClassifySpan(parts[i]);
    }
    if forall i :: 0 <= i < |parts| ==> !LoneDelimiter(parts[i]) {
      MarkupOfClassified(parts);
    }
  }

  /** A description with a bold span and a code span, and its expected
      split: spans at the odd positions, plain text around them. */
  const Sample: string := "a **b** `c`"
  const SampleParts: seq<string> := ["a ", "**b**", " ", "`c`", ""]

  /** The bold alternative matches `**b**` at position 2. */
  lemma SampleBoldMatch()
    ensures MatchAt(Sample, 2) == Some(7)
  {
    var t := Sample;
    assert t[2..4] == "**";
    assert t[4..6] != "**" by { assert t[4..6][0] == 'b'; }
    assert t[5..7] == "**";
    assert FindClose(t, 5, "**") == Some(5);
  }

  /** The code alternative matches `` `c` `` at position 8. */
  lemma SampleCodeMatch()
    ensures MatchAt(Sample, 8) == Some(11)
  {
    var t := Sample;
    assert t[8..10] != "**" by { assert t[8..10][0] == '`'; }
    assert t[9..10] != "`" by { assert t[9..10][0] == 'c'; }
    assert t[10..11] == "`";
    assert FindClose(t, 10, "`") == Some(10);
  }

  /** No match starts in the plain stretches. */
  lemma SampleNoMatch()
    ensures MatchAt(Sample, 0).None? && MatchAt(Sample, 1).None? && MatchAt(Sample, 7).None?
  {
    var t := Sample;
    assert t[0..2] != "**" by { assert t[0..2][0] == 'a'; }
    assert t[1..3] != "**" by { assert t[1..3][0] == ' '; }
    assert t[7..9] != "**" by { assert t[7..9][0] == ' '; }
  }

  /** The sample cut at the boundaries of its parts. */
  lemma SampleSlices()
    ensures Sample[0..2] == SampleParts[0] && Sample[2..7] == SampleParts[1]
    ensures Sample[7..8] == SampleParts[2] && Sample[8..11] == SampleParts[3]
    ensures |Sample| == 11
  {
  }

  /** The tail of the sample from the end of the bold span tokenises as a
      space, the code span and an empty part. */
  lemma SampleTailTokenises()
    ensures Tokenises(Sample, Matcher(Sample), 7, SampleParts[2..])
  {
    var m := Matcher(Sample);
    SampleSlices();
    SampleCodeMatch();
    SampleNoMatch();
    assert SampleParts[2..][2..] == [SampleParts[4]];
    assert Tokenises(Sample, m, 11, [SampleParts[4]]);
    TokenisesCons(Sample, m, 7, SampleParts[2..]);
  }

  /** The head of the sample: the plain part `a ` with no match in it,
      then the bold span matched right after it. */
  lemma SampleHead()
    ensures |SampleParts| >= 3 && |SampleParts[0]| == 2 && |SampleParts[1]| == 5 && |Sample| == 11
    ensures Sample[0..2] == SampleParts[0] && Sample[2..7] == SampleParts[1]
    ensures Matcher(Sample)(0).None? && Matcher(Sample)(1).None?
    ensures Matcher(Sample)(2) == Some(7)
  {
    SampleSlices();
    SampleBoldMatch();
    SampleNoMatch();
  }

  /** The whole sample tokenises as its expected parts. */
  lemma SampleTokenises()
    ensures Tokenises(Sample, Matcher(Sample), 0, SampleParts)
  {
    SampleHead();
    SampleTailTokenises();
    TokenisesCons(Sample, Matcher(Sample), 0, SampleParts);
  }

  /** The split of the sample, ending in an empty plain part. */
  lemma SplitExample()
    ensures Split(Sample) == SampleParts
  {
    SampleTokenises();
    MatcherProperties(Sample);
    TokenisationUnique(Sample, Matcher(Sample), 0, SampleParts, Split(Sample));
  }

  /** A lone `**` is plain text to the regular expression, but it both
      starts and ends with `**`, so it renders as an empty bold span. */
  lemma LoneBoldRendersEmpty()
    ensures Split("**") == ["**"]
    ensures Render("**") == [Bold("")]
  {
  }
}

=== FILE: lists.dfy ===
/** The list operations the navigation tree is built from: membership
    toggling of the expanded-items arrays (App.tsx:83-97), append-if-absent
    (App.tsx:100-118) and `Array.from(new Set(...))` (App.tsx:73, 198). */
module Lists {

  /** No element occurs twice. */
  predicate NoDup<T(==,!new)>(l: seq<T>)
  {
    forall i, j :: 0 <= i < j < |l| ==> l[i] != l[j]
  }

  /** `l.filter(y => y !== x)`: every copy of `x` removed, the rest kept in
      order. */
  function Without<T(==,!new)>(l: seq<T>, x: T): (r: seq<T>)
    ensures x !in r
    ensures forall y :: y != x ==> (y in r <==> y in l)
    ensures |r| <= |l|
  {
    Filter(l, (y: T) => y != x)
  }

  /** Filtering a list that does not contain `x` returns it unchanged. */
  lemma WithoutAbsent<T(!new)>(l: seq<T>, x: T)
    requires x !in l
    ensures Without(l, x) == l
  {
    FilterAll(l, (y: T) => y != x);
  }

  /** Filtering distributes over concatenation. */
  lemma WithoutConcat<T(!new)>(a: seq<T>, b: seq<T>, x: T)
    ensures Without(a + b, x) == Without(a, x) + Without(b, x)
  {
    FilterConcat(a, b, (y: T) => y != x);
  }

  /** Filtering keeps a duplicate-free list duplicate-free. */
  lemma WithoutNoDup<T(!new)>(l: seq<T>, x: T)
    requires NoDup(l)
    ensures NoDup(Without(l, x))
  {
    FilterNoDup(l, (y: T) => y != x);
  }

  /** The update behind `toggleCategory` and `toggleGroup`: remove every
      copy of `x` when present, otherwise append it at the end. */
  function Toggle<T(==,!new)>(l: seq<T>, x: T): (r: seq<T>)
    ensures x in r <==> x !in l
    ensures forall y :: y != x ==> (y in r <==> y in l)
  {
    if x in l then Without(l, x) else l + [x]
  }

  /** Toggling leaves every other entry where it was: with `x` filtered out,
      the list before and after are the same sequence (same order, same
      copies); and an absent `x` is appended at the end. */
  lemma ToggleKeepsOthers<T(!new)>(l: seq<T>, x: T)
    ensures Without(Toggle(l, x), x) == Without(l, x)
    ensures x !in l ==> Toggle(l, x) == l + [x]
    ensures x in l ==> |Toggle(l, x)| < |l|
  {
    if x in l {
      WithoutAbsent(Without(l, x), x);
      WithoutShrinks(l, x);
    } else {
      WithoutConcat(l, [x], x);
      assert Without([x], x) == [];
    }
  }

  /** Removing an element that is present shortens the list. */
  lemma WithoutShrinks<T(!new)>(l: seq<T>, x: T)
    requires x in l
    ensures |Without(l, x)| < |l|
  {
    FilterShrinks(l, (y: T) => y != x, x);
  }

  /** Toggling an absent entry twice restores the list. */
  lemma ToggleTwice<T(!new)>(l: seq<T>, x: T)
    requires x !in l
    ensures Toggle(Toggle(l, x), x) == l
  {
    ToggleKeepsOthers(l, x);
    WithoutConcat(l, [x], x);
    assert Without([x], x) == [];
    WithoutAbsent(l, x);
  }

  /** Toggling keeps a duplicate-free list duplicate-free. */
  lemma ToggleNoDup<T(!new)>(l: seq<T>, x: T)
    ensures NoDup(l) ==> NoDup(Toggle(l, x))
  {
    if x in l && NoDup(l) {
      WithoutNoDup(l, x);
    }
  }

  /** The functional update of the auto-expand effect: append `x` unless it
      is already a member. */
  function AddIfAbsent<T(==,!new)>(l: seq<T>, x: T): (r: seq<T>)
    ensures x in r
    ensures |l| <= |r| <= |l| + 1 && r[..|l|] == l
    ensures forall y :: y in r <==> y in l || y == x
    ensures x in l ==> r == l
    ensures NoDup(l) ==> NoDup(r)
  {
    if x in l then l else l + [x]
  }

  /** The index of the first occurrence of `y` (`l.indexOf(y)`). */
  function FirstIndex<T(==,!new)>(l: seq<T>, y: T): (k: nat)
    requires y in l
    ensures k < |l| && l[k] == y
    ensures forall j :: 0 <= j < k ==> l[j] != y
  {
    if l[0] == y then 0 else 1 + FirstIndex(l[1..], y)
  }

  /** `Array.from(new Set(l))`: the distinct elements of `l` in the order of
      their first occurrence (a `Set` iterates in insertion order). */
  function Dedup<T(==,!new)>(l: seq<T>): (r: seq<T>)
    ensures NoDup(r)
    ensures forall y :: y in r <==> y in l
    ensures |r| <= |l|
  {
    if |l| == 0 then []
    else
      var init := l[..|l| - 1];
      assert l == init + [l[|l| - 1]];
      var prev := Dedup(init);
      if l[|l| - 1] in prev then prev else prev + [l[|l| - 1]]
  }

  /** The first occurrence of an element of a prefix is unaffected by what
      follows the prefix. */
  lemma FirstIndexPrefix<T(!new)>(a: seq<T>, b: seq<T>, y: T)
    requires y in a
    ensures FirstIndex(a + b, y) == FirstIndex(a, y)
  {
    var k := FirstIndex(a, y);
    var k' := FirstIndex(a + b, y);
    assert (a + b)[k] == y;
  }

  /** `Dedup` lists elements in strictly increasing order of first
      occurrence, so it is the `Set` insertion order. */
  lemma {:induction false} DedupFirstOccurrenceOrder<T(!new)>(l: seq<T>)
    ensures forall i, j :: 0 <= i < j < |Dedup(l)| ==>
      FirstIndex(l, Dedup(l)[i]) < FirstIndex(l, Dedup(l)[j])
  {
    if |l| > 0 {
      var init := l[..|l| - 1];
      var last := l[|l| - 1];
      assert l == init + [last];
      var prev := Dedup(init);
      DedupFirstOccurrenceOrder(init);
      forall y | y in init
        ensures FirstIndex(l, y) == FirstIndex(init, y)
      {
        FirstIndexPrefix(init, [last], y);
      }
      if last !in prev {
        assert last !in init;
        assert FirstIndex(l, last) == |init|;
      }
      var r := Dedup(l);
      forall i, j | 0 <= i < j < |r|
        ensures FirstIndex(l, r[i]) < FirstIndex(l, r[j])
      {
        assert r[i] == prev[i];
        assert r[i] in init;
        if j < |prev| {
          assert r[j] == prev[j];
        }
      }
    }
  }

  /** `l.filter(p)`: the elements satisfying `p`, in order. */
  function Filter<T(!new)>(l: seq<T>, p: T -> bool): (r: seq<T>)
    ensures |r| <= |l|
    ensures forall y :: y in r <==> y in l && p(y)
  {
    if |l| == 0 then []
    else (if p(l[0]) then [l[0]] else []) + Filter(l[1..], p)
  }

  /** `filter` keeps order and copies: it distributes over concatenation.
      With `FilterSingle` this determines the result of every filter. */
  lemma {:induction false} FilterConcat<T(!new)>(a: seq<T>, b: seq<T>, p: T -> bool)
    ensures Filter(a + b, p) == Filter(a, p) + Filter(b, p)
  {
    if |a| == 0 {
      assert a + b == b;
    } else {
      var head := if p(a[0]) then [a[0]] else [];
      assert (a + b)[0] == a[0];
      assert (a + b)[1..] == a[1..] + b;
      FilterConcat(a[1..], b, p);
      calc {
        Filter(a + b, p);
        head + Filter(a[1..] + b, p);
        head + (Filter(a[1..], p) + Filter(b, p));
        (head + Filter(a[1..], p)) + Filter(b, p);
      }
    }
  }

  /** On one element, `filter` keeps it exactly when the predicate holds. */
  lemma FilterSingle<T(!new)>(y: T, p: T -> bool)
    ensures Filter([y], p) == (if p(y) then [y] else [])
  {
    assert [y][1..] == [];
  }

  /** A list all of whose elements satisfy the predicate is kept whole. */
  lemma {:induction false} FilterAll<T(!new)>(l: seq<T>, p: T -> bool)
    requires forall y :: y in l ==> p(y)
    ensures Filter(l, p) == l
  {
    if |l| > 0 {
      FilterAll(l[1..], p);
    }
  }

  /** Dropping an element shortens the list. */
  lemma {:induction false} FilterShrinks<T(!new)>(l: seq<T>, p: T -> bool, x: T)
    requires x in l && !p(x)
    ensures |Filter(l, p)| < |l|
  {
    if l[0] != x {
      FilterShrinks(l[1..], p, x);
    }
  }

  /** Filtering keeps a duplicate-free list duplicate-free. */
  lemma {:induction false} FilterNoDup<T(!new)>(l: seq<T>, p: T -> bool)
    requires NoDup(l)
    ensures NoDup(Filter(l, p))
  {
    if |l| > 0 {
      FilterNoDup(l[1..], p);
      assert l[0] !in l[1..] by {
        forall k | 0 <= k < |l[1..]| ensures l[1..][k] != l[0] {
          assert l[1..][k] == l[k + 1];
        }
      }
    }
  }

  /** `map` distributes over concatenation. */
  lemma MapConcat<T, U>(a: seq<T>, b: seq<T>, f: T -> U)
    ensures Map(a + b, f) == Map(a, f) + Map(b, f)
  {
  }

  /** `l.map(f)`. */
  function Map<T, U>(l: seq<T>, f: T -> U): (r: seq<U>)
    ensures |r| == |l|
    ensures forall i :: 0 <= i < |l| ==> r[i] == f(l[i])
  {
    if |l| == 0 then [] else [f(l[0])] + Map(l[1..], f)
  }
}

=== FILE: navigation.dfy ===
/** The navigation state of the application shell (App.tsx:63-139,
    173-330): the active section, the expanded categories and groups of the
    sidebar tree, the resizable sidebar width, and the lesson tree derived
    from the list of sections. */
module Navigation {
  import opened Types
  import Lists

  /** The id that selects the landing page. */
  const HomeId: string := "home"

  /** The sidebar width the application starts with, in pixels. */
  const DefaultWidth: int := 288

  /** A drag only applies strictly between these widths. */
  const MinWidth: int := 200
  const MaxWidth: int := 600

  datatype NavState = NavState(
    activeSectionId: string,
    expandedCategories: seq<string>,
    expandedGroups: seq<string>,
    sidebarWidth: int,
    isResizing: bool)

  /** The state the application settles in after mounting: the landing
      page at the default width, not dragging, and the auto-expand effect
      applied once to the id `home` (it expands something only when some
      section carries that id). */
  function InitNav(sections: seq<Section>): (r: NavState)
    ensures r.activeSectionId == HomeId && r.sidebarWidth == DefaultWidth && !r.isResizing
    ensures NavInv(r)
    ensures AutoExpand(r, sections) == r
    ensures FindSection(sections, HomeId).None? ==> r.expandedCategories == [] && r.expandedGroups == []
  {
    AutoExpand(NavState(HomeId, [], [], DefaultWidth, false), sections)
  }

  // ---------------------------------------------------------------------
  // Looking sections up

  /** `sections.findIndex(s => s.id === id)`: the index of the first section
      with that id, or -1. */
  function FindIndex(sections: seq<Section>, id: string): (k: int)
    ensures -1 <= k < |sections|
    ensures k >= 0 ==> sections[k].id == id
    ensures forall j :: 0 <= j < |sections| && (k == -1 || j < k) ==> sections[j].id != id
  {
    if |sections| == 0 then -1
    else if sections[0].id == id then 0
    else
      var k := FindIndex(sections[1..], id);
      if k == -1 then -1 else k + 1
  }

  /** `sections.find(s => s.id === id)`: the active section. */
  function FindSection(sections: seq<Section>, id: string): (r: Option<Section>)
    ensures r.None? <==> forall j :: 0 <= j < |sections| ==> sections[j].id != id
    ensures r.Some? ==> exists k :: (0 <= k < |sections| && sections[k] == r.value
      && r.value.id == id && forall j :: 0 <= j < k ==> sections[j].id != id)
  {
    var k := FindIndex(sections, id);
    if k >= 0 then Some(sections[k]) else None
  }

  /** `sections[findIndex + 1]`: the section the "next" button leads to.
      For an id some section has, it is the section right after the first
      one with that id, if any; for an id no section has, `findIndex` gives
      -1 and the lookup lands on the first section. */
  function NextSection(sections: seq<Section>, id: string): (r: Option<Section>)
    ensures forall k ::
      (0 <= k < |sections| && sections[k].id == id && forall j :: 0 <= j < k ==> sections[j].id != id) ==>
      r == (if k + 1 < |sections| then Some(sections[k + 1]) else None)
    ensures FindSection(sections, id).None? ==>
      r == (if |sections| > 0 then Some(sections[0]) else None)
  {
    if FindIndex(sections, id) + 1 < |sections| then Some(sections[FindIndex(sections, id) + 1]) else None
  }

  // ---------------------------------------------------------------------
  // Expanding and collapsing

  /** `toggleCategory`. */
  function ToggleCategory(st: NavState, category: string): (r: NavState)
    ensures category in r.expandedCategories <==> category !in st.expandedCategories
    ensures forall c :: c != category ==>
      (c in r.expandedCategories <==> c in st.expandedCategories)
    ensures r == st.(expandedCategories := r.expandedCategories)
    ensures Lists.NoDup(st.expandedCategories) ==> Lists.NoDup(r.expandedCategories)
  {
    Lists.ToggleNoDup(st.expandedCategories, category);
    st.(expandedCategories := Lists.Toggle(st.expandedCategories, category))
  }

  /** `toggleGroup`: the same update on the expanded groups. */
  function ToggleGroup(st: NavState, group: string): (r: NavState)
    ensures group in r.expandedGroups <==> group !in st.expandedGroups
    ensures forall g :: g != group ==> (g in r.expandedGroups <==> g in st.expandedGroups)
    ensures r == st.(expandedGroups := r.expandedGroups)
    ensures Lists.NoDup(st.expandedGroups) ==> Lists.NoDup(r.expandedGroups)
  {
    Lists.ToggleNoDup(st.expandedGroups, group);
    st.(expandedGroups := Lists.Toggle(st.expandedGroups, group))
  }

  /** A toggle removes every copy of a present entry, appends an absent one
      at the end, and keeps the other entries in their order; toggling an
      absent entry twice restores the list. */
  lemma ToggleOrder(st: NavState, category: string, group: string)
    ensures Lists.Without(ToggleCategory(st, category).expandedCategories, category)
         == Lists.Without(st.expandedCategories, category)
    ensures category !in st.expandedCategories ==>
      ToggleCategory(st, category).expandedCategories == st.expandedCategories + [category]
    ensures category !in st.expandedCategories ==>
      ToggleCategory(ToggleCategory(st, category), category) == st
    ensures Lists.Without(ToggleGroup(st, group).expandedGroups, group)
         == Lists.Without(st.expandedGroups, group)
    ensures group !in st.expandedGroups ==>
      ToggleGroup(st, group).expandedGroups == st.expandedGroups + [group]
    ensures group !in st.expandedGroups ==> ToggleGroup(ToggleGroup(st, group), group) == st
  {
    Lists.ToggleKeepsOthers(st.expandedCategories, category);
    Lists.ToggleKeepsOthers(st.expandedGroups, group);
    if category !in st.expandedCategories {
      Lists.ToggleTwice(st.expandedCategories, category);
    }
    if group !in st.expandedGroups {
      Lists.ToggleTwice(st.expandedGroups, group);
    }
  }

  /** The auto-expand effect: the active section's category, and its group
      when it has one, become members of the expanded lists. */
  function AutoExpand(st: NavState, sections: seq<Section>): (r: NavState)
    ensures r.activeSectionId == st.activeSectionId
    ensures r.sidebarWidth == st.sidebarWidth && r.isResizing == st.isResizing
    ensures FindSection(sections, st.activeSectionId).None? ==> r == st
    ensures var sec := FindSection(sections, st.activeSectionId);
      sec.Some? ==> sec.value.category in r.expandedCategories
    ensures var sec := FindSection(sections, st.activeSectionId);
      sec.Some? && HasGroup(sec.value) ==> sec.value.group.value in r.expandedGroups
    ensures |st.expandedCategories| <= |r.expandedCategories|
    ensures r.expandedCategories[..|st.expandedCategories|] == st.expandedCategories
    ensures |st.expandedGroups| <= |r.expandedGroups|
    ensures r.expandedGroups[..|st.expandedGroups|] == st.expandedGroups
    ensures Lists.NoDup(st.expandedCategories) ==> Lists.NoDup(r.expandedCategories)
    ensures Lists.NoDup(st.expandedGroups) ==> Lists.NoDup(r.expandedGroups)
  {
    match FindSection(sections, st.activeSectionId)
    case None => st
    case Some(sec) =>
      var groups := if HasGroup(sec) then Lists.AddIfAbsent(st.expandedGroups, sec.group.value)
                    else st.expandedGroups;
      st.(expandedCategories := Lists.AddIfAbsent(st.expandedCategories, sec.category),
          expandedGroups := groups)
  }

  /** Auto-expanding adds nothing but the active section's category and
      group, and doing it twice is doing it once. */
  lemma AutoExpandOnlyAdds(st: NavState, sections: seq<Section>)
    ensures var r := AutoExpand(st, sections);
      forall c :: c in r.expandedCategories ==>
        (c in st.expandedCategories || c == FindSection(sections, st.activeSectionId).value.category)
    ensures var r := AutoExpand(st, sections);
      forall g :: g in r.expandedGroups ==>
        (g in st.expandedGroups || g == FindSection(sections, st.activeSectionId).value.group.value)
    ensures AutoExpand(AutoExpand(st, sections), sections) == AutoExpand(st, sections)
  {
  }

  /** Selecting a section: the id changes, and when it is a new id the
      auto-expand effect runs on it. Re-selecting the active id changes
      nothing; the width and the drag flag are never touched; entries
      already expanded stay where they are. */
  function Select(st: NavState, sections: seq<Section>, id: string): (r: NavState)
    ensures r.activeSectionId == id
    ensures id == st.activeSectionId ==> r == st
    ensures r.sidebarWidth == st.sidebarWidth && r.isResizing == st.isResizing
    ensures id != st.activeSectionId && FindSection(sections, id).Some? ==>
      FindSection(sections, id).value.category in r.expandedCategories
    ensures id != st.activeSectionId && FindSection(sections, id).Some? && HasGroup(FindSection(sections, id).value) ==>
      FindSection(sections, id).value.group.value in r.expandedGroups
    ensures FindSection(sections, id).None? ==>
      r.expandedCategories == st.expandedCategories && r.expandedGroups == st.expandedGroups
    ensures |st.expandedCategories| <= |r.expandedCategories|
    ensures r.expandedCategories[..|st.expandedCategories|] == st.expandedCategories
    ensures |st.expandedGroups| <= |r.expandedGroups|
    ensures r.expandedGroups[..|st.expandedGroups|] == st.expandedGroups
  {
    if id == st.activeSectionId then st
    else AutoExpand(st.(activeSectionId := id), sections)
  }

  // ---------------------------------------------------------------------
  // Resizing the sidebar

  /** The mouse-move handler: the width follows the mouse only during a
      drag and only strictly between 200 and 600 pixels. */
  function Resize(st: NavState, x: int): (r: NavState)
    ensures r.sidebarWidth != st.sidebarWidth ==> st.isResizing && MinWidth < x < MaxWidth
    ensures st.isResizing && MinWidth < x < MaxWidth ==> r.sidebarWidth == x
    ensures r == st.(sidebarWidth := r.sidebarWidth)
  {
    if st.isResizing && MinWidth < x && x < MaxWidth then st.(sidebarWidth := x) else st
  }

  // ---------------------------------------------------------------------
  // Every event

  datatype NavEvent =
    | ToggleCategoryClicked(category: string)
    | ToggleGroupClicked(group: string)
    | SectionClicked(id: string)      // a section button of the sidebar
    | HomeClicked                     // the home button
    | StartClicked                    // the landing page's start button
    | NextClicked                     // the "next section" button of a lesson
    | ResizeStarted                   // mouse down on the drag handle
    | ResizeStopped                   // mouse up anywhere
    | MouseMoved(x: int)              // mouse move anywhere

  /** Whether the control behind the event is on screen: the start button
      only on the landing page, the next button only under a lesson that has
      a successor. Starting with no sections at all would throw, so it is
      not a step. */
  predicate NavEnabled(st: NavState, sections: seq<Section>, e: NavEvent)
  {
    match e
    case StartClicked => st.activeSectionId == HomeId && |sections| > 0
    case NextClicked =>
      && st.activeSectionId != HomeId
      && FindSection(sections, st.activeSectionId).Some?
      && FindSection(sections, st.activeSectionId).value.kind == Lesson
      && NextSection(sections, st.activeSectionId).Some?
    case _ => true
  }

  /** The effect of an enabled event. Only a mouse move changes the width,
      only the two drag events change the drag flag, and every event keeps
      the invariant. */
  function NavApply(st: NavState, sections: seq<Section>, e: NavEvent): (r: NavState)
    requires NavEnabled(st, sections, e)
    ensures !e.MouseMoved? ==> r.sidebarWidth == st.sidebarWidth
    ensures !(e.ResizeStarted? || e.ResizeStopped?) ==> r.isResizing == st.isResizing
    ensures NavInv(st) ==> NavInv(r)
  {
    match e
    case ToggleCategoryClicked(c) => ToggleCategory(st, c)
    case ToggleGroupClicked(g) => ToggleGroup(st, g)
    case SectionClicked(id) => Select(st, sections, id)
    case HomeClicked => Select(st, sections, HomeId)
    case StartClicked => Select(st, sections, sections[0].id)
    case NextClicked => Select(st, sections, NextSection(sections, st.activeSectionId).value.id)
    case ResizeStarted => st.(isResizing := true)
    case ResizeStopped => st.(isResizing := false)
    case MouseMoved(x) => Resize(st, x)
  }

  /** The invariant of the navigation state: the width stays strictly
      inside the drag range and neither expanded list holds a duplicate. */
  predicate NavInv(st: NavState)
  {
    && MinWidth < st.sidebarWidth < MaxWidth
    && Lists.NoDup(st.expandedCategories)
    && Lists.NoDup(st.expandedGroups)
  }

  /** The states reached by a sequence of events; `None` as soon as an
      event's control is not on screen. */
  function NavTrace(st: NavState, sections: seq<Section>, es: seq<NavEvent>): Option<NavState>
    decreases |es|
  {
    if |es| == 0 then Some(st)
    else if !NavEnabled(st, sections, es[0]) then None
    else NavTrace(NavApply(st, sections, es[0]), sections, es[1..])
  }

  /** From the start, the sidebar width always stays strictly between 200
      and 600 and the expanded lists never hold a duplicate. */
  lemma {:induction false} NavTraceKeepsInv(st: NavState, sections: seq<Section>, es: seq<NavEvent>)
    requires NavInv(st) && NavTrace(st, sections, es).Some?
    ensures NavInv(NavTrace(st, sections, es).value)
    decreases |es|
  {
    if |es| > 0 {
      NavTraceKeepsInv(NavApply(st, sections, es[0]), sections, es[1..]);
    }
  }

  /** The invariant holds of every navigation state reachable from the
      mounted application. */
  lemma NavReachableInv(sections: seq<Section>, es: seq<NavEvent>)
    requires NavTrace(InitNav(sections), sections, es).Some?
    ensures NavInv(NavTrace(InitNav(sections), sections, es).value)
  {
    NavTraceKeepsInv(InitNav(sections), sections, es);
  }

  /** The landing page's start button selects the first section and expands
      its category; when the first section's id is itself `home`, the id
      does not change, the effect does not run again, and nothing changes.
      The home button returns to the landing page. */
  lemma StartAndHome(st: NavState, sections: seq<Section>)
    requires st.activeSectionId == HomeId && |sections| > 0
    ensures NavApply(st, sections, StartClicked).activeSectionId == sections[0].id
    ensures sections[0].id != HomeId ==>
      sections[0].category in NavApply(st, sections, StartClicked).expandedCategories
    ensures sections[0].id == HomeId ==> NavApply(st, sections, StartClicked) == st
    ensures NavApply(st, sections, HomeClicked).activeSectionId == HomeId
  {
    assert FindIndex(sections, sections[0].id) == 0;
  }

  /** What each on-screen control does. A section button, the home button
      and the start button select their section; the next button selects
      the section right after the active one in the list; the two toggles
      flip one entry of their list; pressing and releasing the drag handle
      only set the drag flag; a mouse move resizes. */
  lemma NavEventEffects(st: NavState, sections: seq<Section>, e: NavEvent)
    requires NavEnabled(st, sections, e)
    ensures e.SectionClicked? ==> NavApply(st, sections, e) == Select(st, sections, e.id)
    ensures e.HomeClicked? ==> NavApply(st, sections, e) == Select(st, sections, HomeId)
    ensures e.StartClicked? ==> NavApply(st, sections, e) == Select(st, sections, sections[0].id)
    ensures e.NextClicked? ==>
      var k := FindIndex(sections, st.activeSectionId);
      && 0 <= k && k + 1 < |sections|
      && sections[k].id == st.activeSectionId
      && NavApply(st, sections, e) == Select(st, sections, sections[k + 1].id)
    ensures e.ToggleCategoryClicked? ==> NavApply(st, sections, e) == ToggleCategory(st, e.category)
    ensures e.ToggleGroupClicked? ==> NavApply(st, sections, e) == ToggleGroup(st, e.group)
    ensures e.ResizeStarted? ==> NavApply(st, sections, e) == st.(isResizing := true)
    ensures e.ResizeStopped? ==> NavApply(st, sections, e) == st.(isResizing := false)
    ensures e.MouseMoved? ==> NavApply(st, sections, e) == Resize(st, e.x)
  {
  }

  /** A drag of the handle: press, move to `x`, release. The width becomes
      `x` when it lies strictly inside the range and stays otherwise, and
      nothing but the width changes. */
  lemma DragResizes(st: NavState, sections: seq<Section>, x: int)
    ensures NavTrace(st, sections, [ResizeStarted, MouseMoved(x), ResizeStopped]) ==
      Some(st.(sidebarWidth := if MinWidth < x < MaxWidth then x else st.sidebarWidth, isResizing := false))
  {
    var es := [ResizeStarted, MouseMoved(x), ResizeStopped];
    assert es[1..] == [MouseMoved(x), ResizeStopped];
    assert es[1..][1..] == [ResizeStopped];
    assert es[1..][1..][1..] == [];
    var pressed := st.(isResizing := true);
    var moved := Resize(pressed, x);
    assert NavApply(st, sections, ResizeStarted) == pressed;
    assert NavApply(pressed, sections, MouseMoved(x)) == moved;
    assert NavTrace(moved, sections, [ResizeStopped]) == Some(moved.(isResizing := false));
  }

  // ---------------------------------------------------------------------
  // The lesson tree

  /** `Array.from(new Set(sections.map(s => s.category)))`. */
  function Categories(sections: seq<Section>): (r: seq<string>)
    ensures Lists.NoDup(r)
    ensures forall i :: 0 <= i < |sections| ==> sections[i].category in r
  {
    Lists.Dedup(Lists.Map(sections, (s: Section) => s.category))
  }

  /** `sections.filter(s => s.category === category)`. */
  function CategorySections(sections: seq<Section>, category: string): (r: seq<Section>)
    ensures forall s :: s in r <==> s in sections && s.category == category
  {
    Lists.Filter(sections, (s: Section) => s.category == category)
  }

  /** The group name of a grouped section. */
  function GroupName(s: Section): string
  {
    if s.group.Some? then s.group.value else ""
  }

  /** `s => s.group` */
  function GroupOf(s: Section): Option<string>
  {
    s.group
  }

  /** The name inside a truthy group value. */
  function GroupValue(g: Option<string>): string
  {
    if g.Some? then g.value else ""
  }

  /** Mapping to the group values and then dropping the falsy ones, as the
      source does, gives the same names as dropping the ungrouped sections
      first and then mapping, as `Groups` does. */
  lemma {:induction false} FilterAfterMapGroups(l: seq<Section>)
    ensures Lists.Map(Lists.Filter(l, HasGroup), GroupName) ==
      Lists.Map(Lists.Filter(Lists.Map(l, GroupOf), Truthy), GroupValue)
  {
    if |l| > 0 {
      FilterAfterMapGroups(l[1..]);
      assert Lists.Map(l, GroupOf)[1..] == Lists.Map(l[1..], GroupOf);
      var kept := if HasGroup(l[0]) then [l[0]] else [];
      var keptValues := if Truthy(l[0].group) then [l[0].group] else [];
      calc {
        Lists.Map(Lists.Filter(l, HasGroup), GroupName);
        Lists.Map(kept + Lists.Filter(l[1..], HasGroup), GroupName);
        { Lists.MapConcat(kept, Lists.Filter(l[1..], HasGroup), GroupName); }
        Lists.Map(kept, GroupName) + Lists.Map(Lists.Filter(l[1..], HasGroup), GroupName);
        Lists.Map(keptValues, GroupValue) + Lists.Map(Lists.Filter(Lists.Map(l[1..], GroupOf), Truthy), GroupValue);
        { Lists.MapConcat(keptValues, Lists.Filter(Lists.Map(l[1..], GroupOf), Truthy), GroupValue); }
        Lists.Map(keptValues + Lists.Filter(Lists.Map(l[1..], GroupOf), Truthy), GroupValue);
        Lists.Map(Lists.Filter(Lists.Map(l, GroupOf), Truthy), GroupValue);
      }
    }
  }

  /** `Array.from(new Set(categorySections.map(s => s.group).filter(Boolean)))`,
      with the falsy groups dropped before mapping (`FilterAfterMapGroups`
      shows the order does not matter). */
  function Groups(sections: seq<Section>, category: string): (r: seq<string>)
    ensures Lists.NoDup(r)
    ensures forall s :: s in sections && s.category == category && HasGroup(s) ==> s.group.value in r
  {
    Lists.Dedup(Lists.Map(Lists.Filter(CategorySections(sections, category), HasGroup), GroupName))
  }

  /** `categorySections.filter(s => s.group === group)`. */
  function GroupSections(sections: seq<Section>, category: string, group: string): (r: seq<Section>)
    ensures forall s :: s in r <==> s in sections && s.category == category && s.group == Some(group)
  {
    Lists.Filter(CategorySections(sections, category), (s: Section) => s.group == Some(group))
  }

  /** `categorySections.filter(s => !s.group)`. */
  function Ungrouped(sections: seq<Section>, category: string): (r: seq<Section>)
    ensures forall s :: s in r <==> s in sections && s.category == category && !HasGroup(s)
  {
    Lists.Filter(CategorySections(sections, category), (s: Section) => !HasGroup(s))
  }

  /** The categories are the distinct categories of the sections, in order
      of first occurrence. */
  lemma CategoriesProperties(sections: seq<Section>)
    ensures Lists.NoDup(Categories(sections))
    ensures forall c :: c in Categories(sections) <==> exists s :: s in sections && s.category == c
    ensures var cats := Categories(sections);
      var names := Lists.Map(sections, (s: Section) => s.category);
      forall i, j :: 0 <= i < j < |cats| ==>
        Lists.FirstIndex(names, cats[i]) < Lists.FirstIndex(names, cats[j])
  {
    var names := Lists.Map(sections, (s: Section) => s.category);
    Lists.DedupFirstOccurrenceOrder(names);
    forall c
      ensures c in names <==> exists s :: s in sections && s.category == c
    {
      if c in names {
        var i :| 0 <= i < |names| && names[i] == c;
        assert sections[i] in sections;
      }
      if exists s :: s in sections && s.category == c {
        var s :| s in sections && s.category == c;
        var i :| 0 <= i < |sections| && sections[i] == s;
        assert names[i] == c;
      }
    }
  }

  /** The groups of a category are the distinct non-empty groups of its
      sections, in order of first occurrence. */
  lemma GroupsProperties(sections: seq<Section>, category: string)
    ensures Lists.NoDup(Groups(sections, category))
    ensures "" !in Groups(sections, category)
    ensures forall g :: g in Groups(sections, category) <==>
      exists s :: s in sections && s.category == category && HasGroup(s) && s.group == Some(g)
    ensures var gs := Groups(sections, category);
      var names := Lists.Map(Lists.Filter(CategorySections(sections, category), HasGroup), GroupName);
      forall i, j :: 0 <= i < j < |gs| ==>
        Lists.FirstIndex(names, gs[i]) < Lists.FirstIndex(names, gs[j])
  {
    var names := Lists.Map(Lists.Filter(CategorySections(sections, category), HasGroup), GroupName);
    Lists.DedupFirstOccurrenceOrder(names);
    forall g
      ensures g in names <==>
        exists s :: s in sections && s.category == category && HasGroup(s) && s.group == Some(g)
    {
      GroupNameOccurs(sections, category, g);
    }
  }

  /** A name is among the mapped group names of a category exactly when a
      section of that category carries it as its truthy group. */
  lemma GroupNameOccurs(sections: seq<Section>, category: string, g: string)
    ensures g in Lists.Map(Lists.Filter(CategorySections(sections, category), HasGroup), GroupName) <==>
      exists s :: s in sections && s.category == category && HasGroup(s) && s.group == Some(g)
  {
    var grouped := Lists.Filter(CategorySections(sections, category), HasGroup);
    var names := Lists.Map(grouped, GroupName);
    if g in names {
      var i :| 0 <= i < |names| && names[i] == g;
      assert grouped[i] in grouped;
    }
    if exists s :: s in sections && s.category == category && HasGroup(s) && s.group == Some(g) {
      var s :| s in sections && s.category == category && HasGroup(s) && s.group == Some(g);
      assert s in grouped;
      var i :| 0 <= i < |grouped| && grouped[i] == s;
      assert names[i] == g;
    }
  }

  /** Within a category, every section is listed either among the ungrouped
      sections or under exactly one of the category's groups, never both,
      and that group is its own. */
  lemma GroupingPartitions(sections: seq<Section>, category: string, s: Section)
    requires s in CategorySections(sections, category)
    ensures s in Ungrouped(sections, category) <==> !HasGroup(s)
    ensures HasGroup(s) ==>
      (GroupName(s) in Groups(sections, category) && s in GroupSections(sections, category, GroupName(s)))
    ensures forall g :: g in Groups(sections, category) && s in GroupSections(sections, category, g) ==>
      (HasGroup(s) && g == GroupName(s))
  {
    GroupsProperties(sections, category);
    assert s in sections && s.category == category;
    if HasGroup(s) {
      assert s.group == Some(GroupName(s));
    }
  }
}

=== FILE: runner.dfy ===
/** The exercise runner (components/ExerciseArea.tsx:38-122, 139-335): the
    per-exercise editor state, the transitions its effect and buttons drive,
    the settlement of a code-execution request, and the pure helpers that
    label a finished run.

    The network request itself is not modelled: `Run` records the request
    it would send and `Settle` receives an abstract `Outcome` standing for
    however the request ended. */
module ExerciseRunner {
  import opened Types

  /** The two views of the exercise panel. */
  datatype Tab = Edit | Solution

  /** The four fields copied out of the service's `run` object. */
  datatype ExecutionResult = ExecutionResult(
    stdout: string,
    stderr: string,
    code: Option<int>,
    signal: Option<string>)

  /** The component's state (ExerciseArea.tsx:39-45) together with the
      exercise it currently shows. */
  datatype RunnerState = RunnerState(
    data: ExerciseData,
    userCode: string,
    activeTab: Tab,
    isRunning: bool,
    output: Option<ExecutionResult>,
    executionError: Option<string>)

  /** The body of the request a run sends. */
  datatype ExecutionRequest = ExecutionRequest(language: string, version: string, files: seq<string>)

  /** A value caught by the `catch` clause: an `Error` carries a message,
      anything else does not. */
  datatype Thrown = ErrorObject(message: string) | NonError

  /** How an execution request settles. */
  datatype Outcome =
    | TransportFail                     // the response arrived with `ok` false
    | Ok(run: Option<ExecutionResult>)  // the body parsed; `run` present or not
    | Throw(thrown: Thrown)             // `fetch` or `json()` rejected, or reading `run`
                                        // off a `null` body raised a TypeError

  /** Everything that can happen to the component. */
  datatype Event =
    | ExerciseChanged(next: ExerciseData)  // the `data` prop changed
    | EditCode(code: string)               // typing in the editor
    | SelectTab(tab: Tab)                  // the two tab buttons
    | Run                                  // the run button
    | Settle(outcome: Outcome)             // the pending request settled
    | Reset                                // the reset button
    | CopySolution                         // copy the solution into the editor
    | ClearOutput                          // the trash button of the console

  const NetworkFailureMessage: string := "网络请求失败，请稍后重试"
  const ParseFailureMessage: string := "无法解析服务器响应"
  const UnknownFailureMessage: string := "运行代码时发生未知错误"

  const SuccessLabel: string := "运行成功"
  const AbnormalLabel: string := "运行异常"

  /** The state the component mounts with: the exercise's starting code in
      the editor, nothing pending and nothing set. The exercise-change
      effect, which also fires on mount, leaves it as it is. */
  function Init(data: ExerciseData): (r: RunnerState)
    ensures r.data == data && r.userCode == data.initialCode && r.activeTab == Edit
    ensures !r.isRunning && r.output.None? && r.executionError.None?
    ensures Inv(r)
    ensures ChangeExercise(r, data) == r
  {
    RunnerState(data, data.initialCode, Edit, false, None, None)
  }

  /** The reset effect that fires when the exercise changes. The running
      flag is left alone. */
  function ChangeExercise(s: RunnerState, next: ExerciseData): (r: RunnerState)
    ensures r.data == next && r.userCode == next.initialCode && r.activeTab == Edit
    ensures r.output.None? && r.executionError.None?
    ensures r.isRunning == s.isRunning
  {
    s.(data := next, userCode := next.initialCode, activeTab := Edit, output := None, executionError := None)
  }

  /** The synchronous part of `handleRunCode`, before the request settles. */
  function StartRun(s: RunnerState): (r: RunnerState)
    ensures r.isRunning && r.output.None? && r.executionError.None? && r.activeTab == Edit
    ensures r.data == s.data && r.userCode == s.userCode
  {
    s.(isRunning := true, output := None, executionError := None, activeTab := Edit)
  }

  /** The request a run sends: the code in the editor when the button was
      pressed, as the single file of a Python 3.10.0 job. */
  function RequestFor(s: RunnerState): ExecutionRequest
  {
    ExecutionRequest("python", "3.10.0", [s.userCode])
  }

  /** The message the `catch` clause stores for a failed request, or `None`
      when the request produced a result. */
  function FailureMessage(o: Outcome): (m: Option<string>)
    ensures m.None? <==> o.Ok? && o.run.Some?
  {
    match o
    case TransportFail => Some(NetworkFailureMessage)
    case Ok(run) => if run.Some? then None else Some(ParseFailureMessage)
    case Throw(ErrorObject(msg)) => Some(msg)
    case Throw(NonError) => Some(UnknownFailureMessage)
  }

  /** The asynchronous part of `handleRunCode`: the result or the failure
      message is stored, and the `finally` clause clears the running flag.
      Only the field the outcome sets is written; the other one is left as
      the settling moment finds it. */
  function Complete(s: RunnerState, o: Outcome): (r: RunnerState)
    ensures !r.isRunning
    ensures r.data == s.data && r.userCode == s.userCode && r.activeTab == s.activeTab
    ensures o.Ok? && o.run.Some? ==> r.output == o.run && r.executionError == s.executionError
    ensures !(o.Ok? && o.run.Some?) ==> r.output == s.output && r.executionError.Some?
  {
    match FailureMessage(o)
    case None => s.(output := o.run, isRunning := false)
    case Some(msg) => s.(executionError := Some(msg), isRunning := false)
  }

  /** Whether the event can happen in this state: a disabled or hidden
      control cannot fire, and only a pending request can settle. */
  predicate Enabled(s: RunnerState, e: Event)
  {
    match e
    case ExerciseChanged(_) => true
    case EditCode(_) => s.activeTab == Edit
    case SelectTab(_) => true
    case Run => !s.isRunning
    case Settle(_) => s.isRunning
    case Reset => !s.isRunning
    case CopySolution => s.activeTab == Solution
    case ClearOutput => s.activeTab == Edit && !s.isRunning && s.output.Some?
  }

  /** The effect of an enabled event. Only an exercise change replaces the
      exercise; only a run or a settlement touches the running flag; and an
      enabled event keeps the invariant. */
  function Apply(s: RunnerState, e: Event): (r: RunnerState)
    ensures !e.ExerciseChanged? ==> r.data == s.data
    ensures !(e.Run? || e.Settle?) ==> r.isRunning == s.isRunning
    ensures Inv(s) && Enabled(s, e) ==> Inv(r)
  {
    match e
    case ExerciseChanged(next) => ChangeExercise(s, next)
    case EditCode(code) => s.(userCode := code)
    case SelectTab(tab) => s.(activeTab := tab)
    case Run => StartRun(s)
    case Settle(o) => Complete(s, o)
    case Reset => s.(userCode := s.data.initialCode)
    case CopySolution => s.(userCode := s.data.solutionCode, activeTab := Edit, output := None)
    case ClearOutput => s.(output := None)
  }

  /** One step of the component: `None` when the event cannot happen. A
      step from a state satisfying the invariant reaches one that does too. */
  function Step(s: RunnerState, e: Event): (r: Option<RunnerState>)
    ensures r.Some? <==> Enabled(s, e)
    ensures Inv(s) && r.Some? ==> Inv(r.value)
  {
    if Enabled(s, e) then Some(Apply(s, e)) else None
  }

  /** The request an event sends: only an enabled run sends one. */
  function Sent(s: RunnerState, e: Event): (req: Option<ExecutionRequest>)
    ensures req.Some? <==> e.Run? && !s.isRunning
    ensures req.Some? ==> req.value.files == [s.userCode]
  {
    if e.Run? && Enabled(s, e) then Some(RequestFor(s)) else None
  }

  /** The invariant of the component: while a request is pending neither a
      result nor an error is set, and a result and an error are never set
      together. */
  predicate Inv(s: RunnerState)
  {
    && (s.isRunning ==> s.output.None? && s.executionError.None?)
    && !(s.output.Some? && s.executionError.Some?)
  }

  /** Every enabled event keeps the invariant. */
  lemma StepPreservesInv(s: RunnerState, e: Event)
    requires Inv(s) && Enabled(s, e)
    ensures Inv(Apply(s, e))
  {
  }

  /** The states reached from `s` by a sequence of events; `None` as soon as
      an event cannot happen. */
  function Trace(s: RunnerState, es: seq<Event>): Option<RunnerState>
    decreases |es|
  {
    if |es| == 0 then Some(s)
    else match Step(s, es[0])
      case None => None
      case Some(s') => Trace(s', es[1..])
  }

  /** Every state the component can reach satisfies the invariant. */
  lemma {:induction false} TraceKeepsInv(s: RunnerState, es: seq<Event>)
    requires Inv(s) && Trace(s, es).Some?
    ensures Inv(Trace(s, es).value)
    decreases |es|
  {
    if |es| > 0 {
      StepPreservesInv(s, es[0]);
      TraceKeepsInv(Apply(s, es[0]), es[1..]);
    }
  }

  /** The mounted component satisfies the invariant, and so does every state
      reached from it. */
  lemma ReachableInv(data: ExerciseData, es: seq<Event>)
    requires Trace(Init(data), es).Some?
    ensures Inv(Trace(Init(data), es).value)
  {
    TraceKeepsInv(Init(data), es);
  }

  /** Settling a pending request always ends the run and leaves exactly one
      of the result and the error set: the result verbatim when the body had
      a `run`, otherwise the message the failure maps to. */
  lemma SettleSetsExactlyOne(s: RunnerState, o: Outcome)
    requires Inv(s) && s.isRunning
    ensures Step(s, Settle(o)).Some?
    ensures !Step(s, Settle(o)).value.isRunning
    ensures Step(s, Settle(o)).value.output.Some? != Step(s, Settle(o)).value.executionError.Some?
    ensures o.Ok? && o.run.Some? ==> Step(s, Settle(o)).value.output == o.run
    ensures o.TransportFail? ==> Step(s, Settle(o)).value.executionError == Some(NetworkFailureMessage)
    ensures o == Ok(None) ==> Step(s, Settle(o)).value.executionError == Some(ParseFailureMessage)
    ensures o.Throw? && o.thrown.ErrorObject? ==>
      Step(s, Settle(o)).value.executionError == Some(o.thrown.message)
    ensures o == Throw(NonError) ==> Step(s, Settle(o)).value.executionError == Some(UnknownFailureMessage)
  {
  }

  /** A second press of run while a request is pending does nothing and
      sends nothing; reset is refused too. */
  lemma NoSecondRequest(s: RunnerState)
    requires s.isRunning
    ensures Step(s, Run).None? && Sent(s, Run).None?
    ensures Step(s, Reset).None?
  {
  }

  /** A run started and settled with no other event in between sends the
      code in the editor and ends with the run finished and the editor
      untouched. */
  lemma RunThenSettle(s: RunnerState, o: Outcome)
    requires Inv(s) && !s.isRunning
    ensures Sent(s, Run) == Some(ExecutionRequest("python", "3.10.0", [s.userCode]))
    ensures Trace(s, [Run, Settle(o)]).Some?
    ensures var r := Trace(s, [Run, Settle(o)]).value;
      && !r.isRunning && r.activeTab == Edit && r.userCode == s.userCode
      && r.output.Some? != r.executionError.Some?
  {
    var s1 := StartRun(s);
    assert Trace(s1, [Settle(o)]) == Trace(Complete(s1, o), []);
  }

  /** The exercise-change effect also fires on mount, where it changes
      nothing; and it does not depend on what the user did before. */
  lemma ChangeExerciseOnMount(data: ExerciseData, s: RunnerState)
    ensures ChangeExercise(Init(data), data) == Init(data)
    ensures !s.isRunning ==> ChangeExercise(s, data) == Init(data)
  {
  }

  /** Reset restores the starting code whatever was typed, and pressing it
      again changes nothing. */
  lemma ResetRestores(s: RunnerState, code: string)
    requires !s.isRunning && s.activeTab == Edit
    ensures Trace(s, [EditCode(code), Reset]).Some?
    ensures Trace(s, [EditCode(code), Reset]).value == s.(userCode := s.data.initialCode)
    ensures Trace(s, [Reset, Reset]) == Trace(s, [Reset])
  {
    var s1 := s.(userCode := code);
    assert Trace(s1, [Reset]) == Trace(Apply(s1, Reset), []);
    var s2 := Apply(s, Reset);
    assert Trace(s2, [Reset]) == Trace(Apply(s2, Reset), []);
  }

  /** Reset sits in the toolbar above both tabs: whenever no run is
      pending it puts the starting code back and changes nothing else. */
  lemma ResetOnEitherTab(s: RunnerState)
    ensures !s.isRunning ==> Step(s, Reset) == Some(s.(userCode := s.data.initialCode))
  {
  }

  /** The copy button on the solution tab is never disabled: even while a
      run is pending it writes the solution, the edit tab and a cleared
      result, and nothing else. */
  lemma CopySolutionAnyTime(s: RunnerState)
    ensures s.activeTab == Solution ==>
      Step(s, CopySolution) == Some(s.(userCode := s.data.solutionCode, activeTab := Edit, output := None))
  {
  }

  /** The two tab buttons are never disabled: switching tab works while a
      run is pending and changes nothing but the tab. */
  lemma SwitchTab(s: RunnerState, tab: Tab)
    ensures Step(s, SelectTab(tab)) == Some(s.(activeTab := tab))
  {
  }

  /** The editor is on screen only on the edit tab; typing there replaces
      the code and nothing else, with or without a pending run. */
  lemma TypeCode(s: RunnerState, code: string)
    ensures s.activeTab == Edit <==> Step(s, EditCode(code)).Some?
    ensures s.activeTab == Edit ==> Step(s, EditCode(code)) == Some(s.(userCode := code))
  {
  }

  /** The clear button empties the result and changes nothing else. */
  lemma ClearOnlyOutput(s: RunnerState)
    ensures s.activeTab == Edit && !s.isRunning && s.output.Some? ==>
      Step(s, ClearOutput) == Some(s.(output := None))
  {
  }

  /** Copying the solution puts it in the editor and switches to the edit
      tab with the result cleared; an error message stays set. It
      does not start a run, but a run pressed next sends the solution. */
  lemma CopySolutionThenRun(s: RunnerState)
    requires Inv(s) && s.activeTab == Solution && !s.isRunning
    ensures Step(s, CopySolution).Some?
    ensures var r := Step(s, CopySolution).value;
      && r.userCode == s.data.solutionCode && r.activeTab == Edit && r.output.None?
      && r.executionError == s.executionError && !r.isRunning && r.data == s.data
    ensures Sent(Step(s, CopySolution).value, Run)
         == Some(ExecutionRequest("python", "3.10.0", [s.data.solutionCode]))
  {
  }

  /** The console's clear button is offered exactly when a result is set on
      the edit tab and no run is pending; afterwards neither a result nor an
      error is set. */
  lemma ClearOutputOffered(s: RunnerState)
    requires Inv(s)
    ensures Step(s, ClearOutput).Some? <==> s.activeTab == Edit && !s.isRunning && s.output.Some?
    ensures Step(s, ClearOutput).Some? ==>
      Step(s, ClearOutput).value.output.None? && Step(s, ClearOutput).value.executionError.None?
  {
  }

  /** The known race: a request is not cancelled when the exercise changes,
      so its result lands under the next exercise. */
  lemma StaleResultLands(first: ExerciseData, second: ExerciseData, res: ExecutionResult)
    ensures Sent(Init(first), Run) == Some(RequestFor(Init(first)))
    ensures Trace(Init(first), [Run, ExerciseChanged(second), Settle(Ok(Some(res)))]).Some?
    ensures var r := Trace(Init(first), [Run, ExerciseChanged(second), Settle(Ok(Some(res)))]).value;
      r.data == second && r.output == Some(res)
  {
    var s1 := StartRun(Init(first));
    var s2 := ChangeExercise(s1, second);
    assert Trace(s2, [Settle(Ok(Some(res)))]) == Trace(Complete(s2, Ok(Some(res))), []);
    assert [Run, ExerciseChanged(second), Settle(Ok(Some(res)))][1..] == [ExerciseChanged(second), Settle(Ok(Some(res)))];
    assert [ExerciseChanged(second), Settle(Ok(Some(res)))][1..] == [Settle(Ok(Some(res)))];
  }

  /** The cause shown for a terminating signal (`getSignalDescription`). */
  function SignalDescription(signal: string): (r: string)
    ensures r != signal <==> IsKnownSignal(signal)
  {
    match signal
    case "SIGSEGV" => "Segmentation Fault (访问了非法内存)"
    case "SIGFPE" => "Floating Point Exception (除以零等)"
    case "SIGILL" => "Illegal Instruction (非法指令)"
    case "SIGABRT" => "Aborted (程序中止)"
    case "SIGKILL" => "Process Killed (可能超时或内存溢出)"
    case _ => signal
  }

  /** The five signals with a description of their own. */
  predicate IsKnownSignal(signal: string)
  {
    signal in {"SIGSEGV", "SIGFPE", "SIGILL", "SIGABRT", "SIGKILL"}
  }

  /** Describing is idempotent: a description is not itself a signal name.
      Distinct known signals get distinct descriptions. */
  lemma SignalDescriptionProperties(a: string, b: string)
    ensures SignalDescription(SignalDescription(a)) == SignalDescription(a)
    ensures IsKnownSignal(a) && IsKnownSignal(b) && a != b ==>
      SignalDescription(a) != SignalDescription(b)
  {
  }

  /** The status line of a finished run (ExerciseArea.tsx:282): success
      exactly when the exit code is 0 and no signal is reported. */
  function StatusLabel(res: ExecutionResult): (status: string)
    ensures status == SuccessLabel || status == AbnormalLabel
    ensures status == SuccessLabel <==> res.code == Some(0) && !Truthy(res.signal)
  {
    if res.code == Some(0) && !Truthy(res.signal) then SuccessLabel else AbnormalLabel
  }

  /** The signal line of a finished run, shown only for a truthy signal; it
      names the cause for the five known signals and the raw name otherwise. */
  function SignalLine(res: ExecutionResult): (line: Option<string>)
    ensures line.Some? <==> Truthy(res.signal)
    ensures line.Some? ==> (line.value == res.signal.value <==> !IsKnownSignal(res.signal.value))
  {
    if Truthy(res.signal) then Some(SignalDescription(res.signal.value)) else None
  }

  /** A run labelled a success shows no signal line, and a run with a signal
      line is labelled abnormal. */
  lemma StatusAgreesWithSignal(res: ExecutionResult)
    ensures StatusLabel(res) == SuccessLabel ==> SignalLine(res).None?
    ensures SignalLine(res).Some? ==> StatusLabel(res) == AbnormalLabel
  {
  }

  /** Whether the console panel is on the page: on the edit tab, when a
      result is set, a run is pending or the error message is truthy. */
  predicate ConsoleShown(s: RunnerState)
  {
    s.activeTab == Edit && (s.output.Some? || s.isRunning || Truthy(s.executionError))
  }

  /** While a run is pending the console shows (its spinner). After the run
      settles on the edit tab, the console stays on the page for every
      outcome except an `Error` whose message is empty: that error is set
      but falsy, so nothing is shown at all. */
  lemma ConsoleAfterSettle(s: RunnerState, o: Outcome)
    requires Inv(s) && s.isRunning && s.activeTab == Edit
    ensures ConsoleShown(s)
    ensures ConsoleShown(Step(s, Settle(o)).value) <==> o != Throw(ErrorObject(""))
  {
  }
}

=== FILE: types.dfy ===
/** Record shapes shared by the navigation tree and the exercise runner
    (types.ts). Rendered lesson content (a React node) and quiz data carry
    no behaviour and are not part of this model. */
module Types {

  /** A value that may be absent: TypeScript's optional field `x?: T` and
      the nullable `T | null`. */
  datatype Option<+T> = None | Some(value: T)

  /** The kind of a lesson-tree leaf. */
  datatype SectionType = Lesson | Exercise | Quiz

  /** One practice exercise, supplied as static lesson data. */
  datatype ExerciseData = ExerciseData(
    title: string,
    description: string,
    initialCode: string,
    solutionCode: string,
    hints: seq<string>)

  /** One leaf of the lesson tree: category -> group -> section. */
  datatype Section = Section(
    id: string,
    category: string,
    group: Option<string>,
    title: string,
    kind: SectionType,
    exerciseData: Option<ExerciseData>)

  /** JavaScript truthiness of an optional string: both `undefined` and the
      empty string are falsy. */
  predicate Truthy(s: Option<string>)
  {
    s.Some? && s.value != ""
  }

  /** Whether a section belongs to a group (`s.group` is truthy). */
  predicate HasGroup(s: Section)
  {
    Truthy(s.group)
  }
}
